=== FILE: README.md ===
# Duelbot duel engine in Dafny

A model of the duel engine of Duelbot, a chat bot for two-player sword duels. Two
duelists stand on a line of five cells with two hit points each, in one of two stances,
Heaven or Earth. Each turn both secretly choose two plays from a filtered list of attack
cards and movement actions. The two halves of the turn are then resolved in order:
movement first, then combat. A duelist who lets a choice time out forfeits, and a duelist
whose hit points reach zero loses.

The model is functional. Cards, players and the duel state are immutable datatypes, and
every step of the engine is a pure function over them:

- `wrappers.dfy`: the `Option` type.
- `names.dfy`: Python's `<` on strings, which orders cards by name. Proved to be a
  strict total order.
- `cards.dfy`: the card catalog as enum tags with accessor functions.
  - The attack cards, with the Counterattack pseudo-card.
  - The four move actions and their two move cards, Footwork and Tactics.
  - The catalog tuples, and the lookup by name.
- `players.dfy`: one duelist's record and its small mutators.
- `duel.dfy`: the two-duelist state, `check_for_game_end` and `get_card_played`.
  - Summary lines are abstract events rather than text.
  - The invariant `Valid` holds between turns.
- `movement.dfy`: `resolve_movement`, with the collision midpoint, Heaven-moves-first
  ordering and clamping.
- `combat.dfy`: `does_attack_succeed`, the outcome chain, technique stance flips,
  second-half locks, and `resolve_plays`.
- `selection.dfy`: the legal-play filter of `make_play_selection_view`, with the name
  sort, and the two-step choice protocol of `collect_move_choices`.
- `turn.dfy`: `start_turn`, covering forfeits, the two halves and the death checks. Also
  the duel loop `run_until_end` over a finite script of replies.

Behaviour the code has and the model keeps as written:

- **Player 2's Change Stance.** It sets player 2's stance to the opposite of player 1's
  current stance, not of its own.
- **Counterattack.** It is a special but not a member of `attack_cards`. So it never
  counts as having attacked, and it is offered only as the duelist's own special.
- **The hit test is directional.** Player 1 threatens `cell + c` and player 2 threatens
  `cell - c`. Either way an attack lands exactly when the distance from player 1 to
  player 2 is one of the card's offsets.
- **The collision midpoint is computed in floating point.** Half the sum of the two
  cells goes through Python's `round` when it lies within 0.5 of cell 2, is rounded half
  up above that band and truncated below it. `FloatMidpoint` models that computation,
  `FindMidpoint` restates it on the integer sum of the two cells, and
  `MidpointMatchesFloat` proves the two equal. On every pair of cells of the board the
  result is Python's `round` of the plain average (`MidpointIsRoundedAverage`).
- **Two same-stance charges from cells 0 and 4 are not a collision**, because
  `0 + 2 > 4 - 2` is false. Player 1 moves to cell 2 and player 2 is clamped at player 1's
  new cell, so both end on cell 2 with a toe-to-toe line
  (`Movement.ChargesFromTheEdgesMeetInTheCentre`).

## Model

| member | source | states |
|---|---|---|
| Names.LessIrreflexive | cards.py:14-17 | no card name is ordered before itself |
| Names.LessTransitive | cards.py:14-17 | the name order is transitive |
| Names.LessConnected | cards.py:43-46 | of two different names, one is ordered before the other |
| Names.LessAsymmetric | cards.py:14-17 | two names are never each before the other |
| Cards.Flip | player.py:60-61 | flipping a stance always gives the other stance |
| Cards.FindByName | cards.py:189-193 | a result is a listed play carrying the name; no result means no listed play carries it |
| Cards.AttackCardOrMoveActionFromString | cards.py:189-193 | finds a play exactly when some catalog card or action has that name, and it has that name and is never Counterattack |
| Cards.PlayNamesDistinct | cards.py:55-174 | two plays with the same name are the same play |
| Cards.NameOrderTotal | cards.py:14-17 | comparing plays by name is irreflexive and, on distinct plays, exactly one way round |
| Cards.FromStringRoundTrip | cards.py:189-193 | looking a catalog play up by its own name returns that play |
| Cards.CounterNotFound | cards.py:182-193 | the lookup never returns Counterattack |
| Cards.SpecialTechniques | cards.py:55-81 | both techniques flip stance; Zan-Tetsu needs Earth and hits 2 and 3; Kesa needs Heaven and hits 0 and 1 |
| Cards.CounterIsAPseudoCard | cards.py:83-95 | Counterattack is special, hits nothing, needs no stance, keeps the stance and is not an attack card |
| Cards.SpecialFlagMatchesTuple | cards.py:182-184 | membership of the specials tuple is the `is_special` flag; the attack cards are all cards but Counterattack |
| Cards.EachActionInOneFamily | cards.py:178-185 | every move action belongs to exactly one of Footwork and Tactics |
| Cards.MoveActionFacts | cards.py:143-174 | only Change Stance changes stance, and it does not move; only Retreat goes backward; magnitudes lie in -1..2 |
| Players.IsDead | player.py:57-58 | a duelist with non-negative hp is dead exactly at hp 0; a living duelist has at least 1 hp |
| Players.NewPlayer | player.py:22-41 | a fresh duelist has 2 hp, Heaven stance, no plays, an unused special and no lock |
| Players.Lock | player.py:51-52 | the lock becomes the argument and nothing else changes |
| Players.TakeHit | player.py:54-55 | hp drops by exactly one and nothing else changes |
| Players.ChangeStance | player.py:60-61 | the stance becomes the other stance and nothing else changes |
| Players.ClearPlays | player.py:63-64 | the plays become empty and nothing else changes |
| Players.AddQueuedPlay | player.py:66-67 | the play is appended at the end, earlier plays are kept and nothing else changes |
| Players.ChangeStanceTwice | player.py:60-61 | changing stance twice gives back the same duelist |
| Players.HitsLowerHp | player.py:54-55 | n hits lower hp by exactly n and touch nothing else |
| Players.DeadAfterHits | player.py:54-58 | a duelist is dead exactly after as many hits as it had hp; a fresh one falls to the second hit |
| Duel.NewGame | game.py:33-76 | a new duel is valid and in progress; player 1 is a fresh duelist with the first special at the left edge, player 2 a fresh duelist with the second special at the right edge |
| Duel.CheckForGameEnd | game.py:318-325 | there is a winner exactly when someone is dead; player 1 loses when dead, otherwise player 2 loses when dead; winner and loser differ |
| Duel.GetCardPlayed | game.py:405-420 | nothing when the play is not chosen yet, otherwise the attack card or the move card owning the action |
| Movement.MovesWouldPass | game.py:315-316 | two steps would pass exactly when together they exceed the gap between the duelists |
| Movement.FindMidpoint | game.py:327-332 | for two ordered board cells the meeting cell lies between them |
| Movement.Clamp | game.py:311-313 | the result lies in the bounds: the index itself when inside, the lower bound when below, the upper bound when above |
| Movement.MidpointMatchesFloat | game.py:327-332 | the integer midpoint equals the floating-point computation with Python's round and int |
| Movement.MidpointIsRoundedAverage | game.py:327-332 | on every pair of board cells the midpoint is Python's `round` of the plain average |
| Movement.MidpointBetween | game.py:327-332 | on the board the midpoint lies between the two cells; it is 2 for sums 3 to 5, the upper half for larger sums and the lower half for smaller ones |
| Movement.P1Moves | game.py:366-374 | player 1 ends on `cell + magnitude` when that lies between the left edge and player 2, otherwise on player 2's cell or the left edge; only a Change Stance flips it |
| Movement.P2Moves | game.py:375-385 | player 2 ends on `cell - magnitude` when that lies between player 1 and the right edge, otherwise on player 1's cell or the right edge; its Change Stance takes the opposite of player 1's stance |
| Movement.MoveBoth | game.py:352-400 | a collision puts both on the midpoint; otherwise the Heaven duelist, or player 1 on equal stances, moves first, clamped by the other's old cell, and the other is clamped by the new one; player 2's Change Stance takes the opposite of player 1's stance at that moment; only cells and stances change |
| Movement.ResolveMovement | game.py:339-403 | order is kept; a collision lands both on the midpoint, otherwise both end cells are the clamped steps in Heaven-first order with ties to player 1; player 2's Change Stance leaves it opposite to player 1's stance at the moment it moves; the toe-to-toe line appears exactly when both end on one cell they did not start on |
| Movement.AddToeToToe | game.py:402-403 | the toe-to-toe line is added exactly when the duelists share a cell they did not start on, and nothing else changes |
| Movement.MovesWithinReach | game.py:353-400 | nobody oversteps their own move, even in a collision; a retreat always completes up to the edge |
| Movement.CollisionWithinReach | game.py:353-361 | the collision midpoint is within both duelists' forward reach |
| Movement.HeavenMovesFirst | game.py:364-400 | with different stances, where the Heaven duelist ends does not depend on the Earth duelist's play |
| Movement.TieGoesToPlayer1 | game.py:364-385 | with equal stances and no collision, where player 1 ends does not depend on player 2's play |
| Movement.P2ChangeStanceReadsP1 | game.py:375-393 | player 2's Change Stance leaves it opposite to player 1's stance at the time player 2 moves |
| Movement.P2ChangeStanceQuirk | game.py:378-393 | a double Change Stance from equal stances flips only player 1; against a Heaven player 1, player 2 stays in Earth |
| Movement.ChargesFromTheEdgesMeetInTheCentre | game.py:352-403 | two same-stance charges from the edges both end on cell 2 with a toe-to-toe line |
| Combat.DoesAttackSucceed | game.py:294-309 | for either player, an attack lands exactly when the distance from player 1 to player 2 is among the card's offsets |
| Combat.AttackOutcome | game.py:203-257 | the first-match chain hits player 1 exactly when `P1TakesHit` holds and player 2 exactly when `P2TakesHit` holds, with a clash line exactly when both land |
| Combat.HitsAreExclusive | game.py:203-257 | never both duelists are hit; when both land neither is; an attack landing on a counter hits the attacker only |
| Combat.ResolveAttacks | game.py:192-257 | each duelist loses one hp exactly when the independent rule P1TakesHit or P2TakesHit says so; blades clash exactly when both land |
| Combat.ApplyTechniqueStances | game.py:261-276 | a duelist's stance flips exactly when its play is an attack card that changes stance |
| Combat.OnlyTechniquesFlipInCombat | game.py:261-276 | in combat only Zan-Tetsu and Kesa flip a stance, hit or miss |
| Combat.UpdateLocks | game.py:278-282 | each lock becomes the card or family of the second play, or none for a special, and nothing else changes |
| Combat.StanceChangesOnce | game.py:261-276 | a play flips its duelist's stance exactly when it is Change Stance or a stance-changing attack card, never both |
| Combat.FightAfterMoving | game.py:191-282 | after movement, cells stay; hp follows the hit rule; a stance flips exactly for a stance-changing attack card; locks change only in the second half, to the second play's card or family unless special |
| Combat.ResolvePlays | game.py:182-282 | order is kept; cells come from movement; hp follows the hit rule on the moved state; each stance is the moved stance, flipped exactly for a stance-changing attack card; locks follow their rule; specials, plays and flags are kept |
| Combat.HalfTurnDamage | game.py:203-257 | at most one duelist loses hp, by exactly one; a clash costs nobody; an attack into a counter costs the attacker only |
| Selection.Keep | game.py:433-447 | a filter keeps exactly the elements that pass and introduces no duplicates |
| Selection.InsertBy | game.py:448 | inserting into a list sorted by key keeps it sorted and adds exactly that element |
| Selection.SortBy | game.py:448 | with pairwise different keys, the result is strictly sorted by key and a permutation of the input |
| Selection.SortByName | game.py:465 | the result is strictly sorted by name and a permutation of the input |
| Selection.SortKeepsPlays | game.py:448 | sorting by name keeps exactly the same plays and leaves no duplicates |
| Selection.FlattenActions | game.py:462-464 | exactly the actions whose move card is listed, without duplicates |
| Selection.AttackOptions | game.py:433-448 | exactly the offered attack cards, strictly sorted by name |
| Selection.MoveOptions | game.py:457-465 | exactly the actions of the free move cards, strictly sorted by name |
| Selection.MakePlaySelection | game.py:422-467 | exactly the offered plays; attacks before moves; each group strictly sorted by name; no duplicates |
| Selection.AttacksThenMoves | game.py:467 | two sorted groups, attacks then moves, are sorted within each group of the concatenation |
| Selection.SelectionRespectsRestrictions | game.py:424-461 | options never include the locked card or family, the first play's card or family, a foreign or used special, or an attack off the effective stance |
| Selection.WaitForValue | awaitable_view.py:32-36 | a value comes back exactly when a listed button was pressed, and it is the option at the pressed index |
| Selection.AfterFirstChoice | game.py:496-504 | the first play is queued and the special is marked used exactly when it was the special |
| Selection.CollectMoveChoices | game.py:478-519 | the duelist chooses exactly when both presses are in range of their step's options, and then the two plays at the pressed indices are appended; a missing press is a timeout; the special is marked used exactly when one of the plays is special |
| Selection.SecondStep | game.py:505-519 | the second step chooses exactly when the press is in range of the options computed after the first play, and appends that option after the first play |
| Selection.CollectedFromOptions | game.py:485-512 | each collected play is among the options of its step, the second computed after the first is queued |
| Selection.CollectedPlaysAreLegal | game.py:478-519 | the two plays differ in card, neither is locked, the special is played at most once and only while unused, and each attack fits its stance |
| Turn.Chosen | game.py:111-118 | after both choose, each has exactly two plays and only plays and special flags changed |
| Turn.SetResult | game.py:180 | setting a result succeeds exactly on a pending future and stores that winner and loser; a future already set raises |
| Turn.EndGameShared | game.py:158-180 | `end_game` as written, with one future shared by all duels: it reports exactly when no duel has set the future yet |
| Turn.SecondDuelToEndRaises | game.py:180 | after one duel has ended, ending any second duel raises instead of reporting |
| Turn.EndGame | game.py:158-180 | the duel ends: the outcome is a game over carrying the given winner, loser and forfeit flag, and the state stops being in progress, unchanged otherwise |
| Turn.EveryDuelReports | game.py:158-180 | with a future per duel, every duel that ends reports its own winner and loser |
| Turn.ResolveHalves | game.py:144-156 | a death in half 1 ends the duel on the half-1 state; otherwise half 2 is resolved from the half-1 state; the duel is over exactly when a winner is found after either half, with the dead duelist as loser; a continued duel has both alive |
| Turn.StartTurn | game.py:96-156 | both timed out: no winner; one timed out: the other wins by forfeit; otherwise the halves decide |
| Turn.LockAfterNotSpecial | game.py:278-282 | the lock left by the second half never names a special |
| Turn.HalvesKeepDuelValid | game.py:144-156 | resolving the halves never raises hp or takes it below zero; the duel stays valid or ends with the loser at 0 and the winner standing |
| Turn.ReadyAfterChoosing | game.py:111-118 | choosing plays leaves a valid duel ready to resolve |
| Turn.TurnKeepsDuelValid | game.py:96-156 | a turn keeps a running duel valid; hp never rises or goes negative; a used special stays used; a duel won in combat ends with the loser at exactly 0 |
| Turn.RunUntilEnd | game.py:78-84 | turns are played in script order until one ends the duel, whose outcome is the result; an exhausted script leaves the duel running and valid; hp never rose; a combat win leaves the loser at 0 and the winner standing |

## Left out

- Chat plumbing: the Discord channel, messages, buttons and their deletion, the turn-one
  greeting, the board and state rendering, and the text of every summary line. Summary
  lines are abstract `Event` values in the order the code appends them.
- Randomness: the two specials are parameters of `Duel.NewGame`, which requires them to
  be distinct members of the specials tuple. Emblems, names and mentions are not modelled.
- Concurrency: the two choice coroutines are joined before anything is resolved, so each
  duelist's replies are an input. A reply is a button index or no press before the
  timeout. The timeout length is not modelled.
- Exceptions other than the choice timeout are not caught in the engine and reach the
  caller. Apart from the `InvalidStateError` under "## Findings", the modelled core
  raises none.
- The "unknown card" branch of `get_card_played` logs a line and returns `None`. With the
  catalog's tags every play is an attack card, Counterattack or an action of one of the
  two move cards, so `Duel.GetCardPlayed` has no such branch.
- `Turn.StartTurn`: on a forfeit the model drops these updates that the code makes to
  the timed-out duelist: the first play already queued, the special flag set after the
  first choice, and a `None` appended when the first step times out. The duel is over at
  that point and nothing reads them again.
- Python `str` comparison is modelled on characters as `Names.Less`. The catalog names
  are plain ASCII, so this is the code's order.
- `find_midpoint` uses floating point. `Movement.FloatMidpoint` models it with exact reals,
  which agree with the floats for the small sums a five-cell board produces.
- `Turn.RunUntilEnd`: the duel loop of the code runs until the duel ends. The model runs
  over a finite script of turns and reports that the duel is still running when the
  script runs out.
- Calling the filter twice with the same input gives the same list. This follows from
  `Selection.MakePlaySelection` being a function, so no separate lemma states it.
- `Turn.EndGame`: the result is carried by the winner and loser fields of
  `Turn.TurnOutcome`, as if read from a future of the duel's own. Nothing in the bot
  awaits `winner_future`; the consequences of it being shared are under "## Findings".
- Players' hit points are not capped above. `Duel.Valid` bounds them to 1..2 between
  turns.

## Findings

| source | as written | input that shows it | evidently intended | confidence | as-written member | corrected member |
|---|---|---|---|---|---|---|
| game.py:180 | `winner_future = asyncio.Future()` (game.py:28) is a class attribute of the `GameState` dataclass, so every duel shares one future, and `end_game` calls `set_result` on it | two duels end one after the other in the same process: the second `set_result` raises `InvalidStateError`, which escapes `run_until_end` and skips `del ongoing_matches[channel_id]` (main.py:217-218), so that channel refuses every later challenge (main.py:145-149) | each duel reports its own `(winner, loser)` through a future of its own | high; not executed | Turn.EndGameShared, Turn.SecondDuelToEndRaises | Turn.EndGame, Turn.EveryDuelReports |

=== FILE: cards.dfy ===
/** The fixed card catalog: attack cards (with the Counterattack pseudo-card), the four
    move actions and the two move cards that group them. Every card is a tag; its data
    are pure accessor functions, so equality is by tag rather than by object identity. */
module Cards {
  import opened Wrappers
  import Names

  datatype Stance = Heaven | Earth

  function Flip(s: Stance): (r: Stance)
    ensures r != s
  {
    if s == Heaven then Earth else Heaven
  }

  // ---------------------------------------------------------------- attack cards

  datatype AttackCard = ZanTetsu | Kesa | Counterattack | LowStrike | HighStrike | BalancedStrike

  function AttackName(c: AttackCard): string
  {
    match c
    case ZanTetsu => "Zan-Tetsu Strike"
    case Kesa => "Kesa Strike"
    case Counterattack => "Counterattack"
    case LowStrike => "Low Strike"
    case HighStrike => "High Strike"
    case BalancedStrike => "Balanced Strike"
  }

  predicate IsSpecial(c: AttackCard)
  {
    c == ZanTetsu || c == Kesa || c == Counterattack
  }

  /** The stance a card can only be played from; `None` means any stance. */
  function RequiresStance(c: AttackCard): Option<Stance>
  {
    match c
    case ZanTetsu => Some(Earth)
    case Kesa => Some(Heaven)
    case Counterattack => None
    case LowStrike => Some(Earth)
    case HighStrike => Some(Heaven)
    case BalancedStrike => None
  }

  predicate AttackChangesStance(c: AttackCard)
  {
    c == ZanTetsu || c == Kesa
  }

  /** Distances ahead of the attacker at which the card lands. */
  function HitsCells(c: AttackCard): seq<int>
  {
    match c
    case ZanTetsu => [2, 3]
    case Kesa => [0, 1]
    case Counterattack => []
    case LowStrike => [1]
    case HighStrike => [2]
    case BalancedStrike => [0]
  }

  // ---------------------------------------------------------------- moves

  datatype MoveAction = Approach | Retreat | Charge | ChangeStance

  function ActionName(m: MoveAction): string
  {
    match m
    case Approach => "Approach"
    case Retreat => "Retreat"
    case Charge => "Charge"
    case ChangeStance => "Change Stance"
  }

  /** Signed step towards the opponent. */
  function Magnitude(m: MoveAction): int
  {
    match m
    case Approach => 1
    case Retreat => -1
    case Charge => 2
    case ChangeStance => 0
  }

  predicate ActionChangesStance(m: MoveAction)
  {
    m == ChangeStance
  }

  datatype MoveCard = Footwork | Tactics

  function Actions(f: MoveCard): seq<MoveAction>
  {
    match f
    case Footwork => [Approach, Retreat]
    case Tactics => [Charge, ChangeStance]
  }

  /** The family a move action belongs to, stated independently of `Actions`. */
  function FamilyOfAction(m: MoveAction): MoveCard
  {
    match m
    case Approach => Footwork
    case Retreat => Footwork
    case Charge => Tactics
    case ChangeStance => Tactics
  }

  // ---------------------------------------------------------------- plays and cards

  /** What a player lays down in a half-turn. */
  datatype Play = Attack(card: AttackCard) | Move(action: MoveAction)

  /** Duelbot's `Card` base class: what can be locked out or named as "played first". */
  datatype Card = AttackOf(attack: AttackCard) | FamilyOf(family: MoveCard)

  function PlayName(p: Play): string
  {
    match p
    case Attack(c) => AttackName(c)
    case Move(m) => ActionName(m)
  }

  predicate PlayChangesStance(p: Play)
  {
    match p
    case Attack(c) => AttackChangesStance(c)
    case Move(m) => ActionChangesStance(m)
  }

  /** The card that a play puts under a lock: the attack card itself or the move card
      owning the action. */
  function CardOfPlay(p: Play): Card
  {
    match p
    case Attack(c) => AttackOf(c)
    case Move(m) => FamilyOf(FamilyOfAction(m))
  }

  // ---------------------------------------------------------------- catalog tuples

  const AttackCards: seq<AttackCard> := [ZanTetsu, Kesa, LowStrike, HighStrike, BalancedStrike]
  const MoveCards: seq<MoveCard> := [Footwork, Tactics]
  const SpecialAttackCards: seq<AttackCard> := [ZanTetsu, Kesa, Counterattack]
  const MoveActions: seq<MoveAction> := [Approach, Retreat, Charge, ChangeStance]

  /** `attack_cards + move_actions`, the list searched by name. */
  const Catalog: seq<Play> :=
    [Attack(ZanTetsu), Attack(Kesa), Attack(LowStrike), Attack(HighStrike), Attack(BalancedStrike),
     Move(Approach), Move(Retreat), Move(Charge), Move(ChangeStance)]

  /** A play whose card is in `special_attack_cards`. */
  predicate IsSpecialPlay(p: Play)
  {
    p.Attack? && p.card in SpecialAttackCards
  }

  // ---------------------------------------------------------------- lookup by name

  /** The first play of `plays` carrying `name`. */
  function FindByName(name: string, plays: seq<Play>): (r: Option<Play>)
    ensures r.Some? ==> r.value in plays && PlayName(r.value) == name
    ensures r.None? ==> forall p :: p in plays ==> PlayName(p) != name
    decreases |plays|
  {
    if |plays| == 0 then None
    else if PlayName(plays[0]) == name then Some(plays[0])
    else FindByName(name, plays[1..])
  }

  function AttackCardOrMoveActionFromString(name: string): (r: Option<Play>)
    ensures r.Some? <==> exists p :: p in Catalog && PlayName(p) == name
    ensures r.Some? ==> PlayName(r.value) == name && r.value != Attack(Counterattack)
  {
    FindByName(name, Catalog)
  }

  // ---------------------------------------------------------------- catalog facts

  /** Every play has its own name, so ordering by name is ordering by card. */
  lemma PlayNamesDistinct(p: Play, q: Play)
    requires PlayName(p) == PlayName(q)
    ensures p == q
  {
    match p
    case Attack(c) =>
      assert PlayName(p)[0] == PlayName(q)[0];
      assert |PlayName(p)| == |PlayName(q)|;
    case Move(m) =>
      assert PlayName(p)[0] == PlayName(q)[0];
      assert |PlayName(p)| == |PlayName(q)|;
  }

  /** Comparing plays by name is a strict total order on the catalog. */
  lemma NameOrderTotal(p: Play, q: Play)
    ensures p == q ==> !Names.Less(PlayName(p), PlayName(q))
    ensures p != q ==> (Names.Less(PlayName(p), PlayName(q)) <==> !Names.Less(PlayName(q), PlayName(p)))
  {
    if p == q {
      Names.LessIrreflexive(PlayName(p));
    } else {
      if PlayName(p) == PlayName(q) {
        PlayNamesDistinct(p, q);
      }
      Names.LessConnected(PlayName(p), PlayName(q));
      if Names.Less(PlayName(p), PlayName(q)) {
        Names.LessAsymmetric(PlayName(p), PlayName(q));
      }
    }
  }

  /** Looking a catalog play up by its own name finds that play. */
  lemma {:induction false} FromStringRoundTrip(p: Play)
    requires p in Catalog
    ensures AttackCardOrMoveActionFromString(PlayName(p)) == Some(p)
  {
    var r := AttackCardOrMoveActionFromString(PlayName(p));
    assert r.Some?;
    PlayNamesDistinct(r.value, p);
  }

  /** The Counterattack pseudo-card cannot be looked up. */
  lemma CounterNotFound()
    ensures AttackCardOrMoveActionFromString(AttackName(Counterattack)) == None
  {
    forall p | p in Catalog
      ensures PlayName(p) != AttackName(Counterattack)
    {
      if PlayName(p) == AttackName(Counterattack) {
        PlayNamesDistinct(p, Attack(Counterattack));
      }
    }
  }

  /** Both techniques flip stance: Zan-Tetsu from Earth at distances 2 and 3, Kesa from
      Heaven at distances 0 and 1. */
  lemma SpecialTechniques()
    ensures forall c :: c in SpecialAttackCards && c != Counterattack ==> AttackChangesStance(c)
    ensures RequiresStance(ZanTetsu) == Some(Earth) && HitsCells(ZanTetsu) == [2, 3]
    ensures RequiresStance(Kesa) == Some(Heaven) && HitsCells(Kesa) == [0, 1]
  {
  }

  /** Counterattack is special, threatens nothing, needs no stance, keeps the stance and is
      not an attack card. */
  lemma CounterIsAPseudoCard()
    ensures IsSpecial(Counterattack) && HitsCells(Counterattack) == []
    ensures RequiresStance(Counterattack) == None && !AttackChangesStance(Counterattack)
    ensures Counterattack !in AttackCards
  {
  }

  /** Membership of `special_attack_cards` coincides with the `is_special` flag, and the
      attack cards are exactly the non-Counterattack tags. */
  lemma SpecialFlagMatchesTuple(c: AttackCard)
    ensures c in SpecialAttackCards <==> IsSpecial(c)
    ensures c in AttackCards <==> c != Counterattack
  {
  }

  /** Each move action sits in exactly one move card, the one `FamilyOfAction` names. */
  lemma EachActionInOneFamily(m: MoveAction)
    ensures m in Actions(FamilyOfAction(m))
    ensures (m in Actions(Footwork)) != (m in Actions(Tactics))
  {
  }

  /** Change Stance is the only stance-changing action and does not move; Retreat is the
      only backward step. */
  lemma MoveActionFacts(m: MoveAction)
    ensures ActionChangesStance(m) <==> m == ChangeStance
    ensures ActionChangesStance(m) ==> Magnitude(m) == 0
    ensures Magnitude(m) < 0 <==> m == Retreat
    ensures -1 <= Magnitude(m) <= 2
  {
  }
}

=== FILE: combat.dfy ===
/** Combat of a half-turn after movement: which attacks land, the outcome chain of hits,
    misses, clashes and counters, the stance flip of the two techniques, and, after the
    second half only, the locks for the next turn. */
module Combat {
  import opened Wrappers
  import opened Cards
  import Players
  import opened Duel
  import Movement

  /** A play that is a member of `attack_cards`; Counterattack is not one. */
  predicate Attacks(play: Play)
  {
    play.Attack? && play.card in AttackCards
  }

  predicate Braces(play: Play)
  {
    play == Attack(Counterattack)
  }

  /** `does_attack_succeed`: player 1 threatens the cells `cell + c`, player 2 the cells
      `cell - c`, for each offset `c` of the card. */
  function DoesAttackSucceed(isP1: bool, card: AttackCard, cell1: int, cell2: int): (r: bool)
    ensures r <==> (cell2 - cell1) in HitsCells(card)
  {
    var hits := HitsCells(card);
    if isP1 then
      var hitCells := seq(|hits|, i requires 0 <= i < |hits| => hits[i] + cell1);
      assert forall i :: 0 <= i < |hits| ==> (hitCells[i] == cell2 <==> hits[i] == cell2 - cell1);
      cell2 in hitCells
    else
      var hitCells := seq(|hits|, i requires 0 <= i < |hits| => cell2 - hits[i]);
      assert forall i :: 0 <= i < |hits| ==> (hitCells[i] == cell1 <==> hits[i] == cell2 - cell1);
      cell1 in hitCells
  }

  /** A play of `side` that lands in state `g`: an attack card whose offsets contain the
      distance from player 1 to player 2, for either player. */
  predicate Lands(g: GameState, play: Play)
  {
    Attacks(play) && (g.p2.cell - g.p1.cell) in HitsCells(play.card)
  }

  /** Who loses a hit point, stated on its own: player 1 is hit when player 2 lands while
      player 1 neither lands nor braces, or when player 1 lands into player 2's counter. */
  predicate P1TakesHit(g: GameState, play1: Play, play2: Play)
  {
    (Lands(g, play2) && !Lands(g, play1) && !Braces(play1)) || (Lands(g, play1) && Braces(play2))
  }

  predicate P2TakesHit(g: GameState, play1: Play, play2: Play)
  {
    (Lands(g, play1) && !Lands(g, play2) && !Braces(play2)) || (Lands(g, play2) && Braces(play1))
  }

  /** The lines of one case of the outcome chain and who takes a hit in it. */
  datatype Outcome = Outcome(lines: seq<Event>, p1Hit: bool, p2Hit: bool)

  /** The outcome chain: the first matching case decides the lines and the damage. */
  function AttackOutcome(g: GameState, play1: Play, play2: Play): (o: Outcome)
    ensures o.p1Hit <==> P1TakesHit(g, play1, play2)
    ensures o.p2Hit <==> P2TakesHit(g, play1, play2)
    ensures BladesClash in o.lines <==> Lands(g, play1) && Lands(g, play2)
  {
    var attacked1 := Attacks(play1);
    var attacked2 := Attacks(play2);
    var counter1 := Braces(play1);
    var counter2 := Braces(play2);
    var success1 := attacked1 && DoesAttackSucceed(true, play1.card, g.p1.cell, g.p2.cell);
    var success2 := attacked2 && DoesAttackSucceed(false, play2.card, g.p1.cell, g.p2.cell);
    if success1 && success2 then
      Outcome([ClashLine(P1, play1.card), ClashLine(P2, play2.card), BladesClash], false, false)
    else if success1 && counter2 then
      Outcome([CounterLine(P1, play1.card), Reversal(P2)], true, false)
    else if success2 && counter1 then
      Outcome([CounterLine(P2, play2.card), Reversal(P1)], false, true)
    else if counter2 && !attacked1 then
      Outcome([BraceWasted(P2)], false, false)
    else if counter1 && !attacked2 then
      Outcome([BraceWasted(P1)], false, false)
    else if counter2 && attacked1 && !success1 then
      Outcome([CounterLine(P1, play1.card), WentWide(P2)], false, false)
    else if counter1 && attacked2 && !success2 then
      Outcome([CounterLine(P2, play2.card), WentWide(P1)], false, false)
    else if success1 then
      Outcome((if attacked2 then [MissLine(P2, play2.card)] else []) + [SuccessLine(P1, play1.card)], false, true)
    else if success2 then
      Outcome((if attacked1 then [MissLine(P1, play1.card)] else []) + [SuccessLine(P2, play2.card)], true, false)
    else
      Outcome((if attacked1 then [MissLine(P1, play1.card)] else [])
              + (if attacked2 then [MissLine(P2, play2.card)] else []), false, false)
  }

  /** Combat of a half-turn: the outcome chain's lines appended and its hits taken. */
  function ResolveAttacks(g: GameState, play1: Play, play2: Play): (r: GameState)
    ensures r.p1.hp == g.p1.hp - (if P1TakesHit(g, play1, play2) then 1 else 0)
    ensures r.p2.hp == g.p2.hp - (if P2TakesHit(g, play1, play2) then 1 else 0)
    ensures r.p1 == g.p1.(hp := r.p1.hp) && r.p2 == g.p2.(hp := r.p2.hp)
    ensures r.inProgress == g.inProgress
    ensures |r.summary| >= |g.summary| && r.summary[..|g.summary|] == g.summary
    ensures BladesClash in r.summary[|g.summary|..] <==> Lands(g, play1) && Lands(g, play2)
  {
    var outcome := AttackOutcome(g, play1, play2);
    assert (g.summary + outcome.lines)[|g.summary|..] == outcome.lines;
    g.(p1 := if outcome.p1Hit then Players.TakeHit(g.p1) else g.p1,
       p2 := if outcome.p2Hit then Players.TakeHit(g.p2) else g.p2,
       summary := g.summary + outcome.lines)
  }

  /** Zan-Tetsu and Kesa leave the player who used them in the other stance, hit or miss. */
  function ApplyTechniqueStances(g: GameState, play1: Play, play2: Play): (r: GameState)
    ensures r.p1 == g.p1.(stance := r.p1.stance) && r.p2 == g.p2.(stance := r.p2.stance)
    ensures r.p1.stance == (if Attacks(play1) && AttackChangesStance(play1.card) then Flip(g.p1.stance) else g.p1.stance)
    ensures r.p2.stance == (if Attacks(play2) && AttackChangesStance(play2.card) then Flip(g.p2.stance) else g.p2.stance)
    ensures r.inProgress == g.inProgress
    ensures |r.summary| >= |g.summary| && r.summary[..|g.summary|] == g.summary
  {
    var g1 :=
      if Attacks(play1) && AttackChangesStance(play1.card) then
        var p1 := Players.ChangeStance(g.p1);
        g.(p1 := p1, summary := g.summary + [TechniqueStance(P1, p1.stance)])
      else g;
    if Attacks(play2) && AttackChangesStance(play2.card) then
      var p2 := Players.ChangeStance(g1.p2);
      g1.(p2 := p2, summary := g1.summary + [TechniqueStance(P2, p2.stance)])
    else g1
  }

  /** In the combat step only Zan-Tetsu and Kesa flip a stance, hit or miss; Counterattack,
      the regular attacks and the move actions never do. */
  lemma OnlyTechniquesFlipInCombat(g: GameState, play1: Play, play2: Play)
    ensures var r := ApplyTechniqueStances(g, play1, play2);
      && (r.p1.stance != g.p1.stance <==> play1 == Attack(ZanTetsu) || play1 == Attack(Kesa))
      && (r.p2.stance != g.p2.stance <==> play2 == Attack(ZanTetsu) || play2 == Attack(Kesa))
  {
  }

  /** The lock a second-half play leaves for the next turn: its card or move card, or
      nothing for a special. */
  function LockAfter(play: Play): Option<Card>
  {
    if IsSpecialPlay(play) then None else Some(CardOfPlay(play))
  }

  /** The lock step of the second half. */
  function UpdateLocks(g: GameState): (r: GameState)
    requires |g.p1.chosenPlays| >= 2 && |g.p2.chosenPlays| >= 2
    ensures r.p1.locked == LockAfter(g.p1.chosenPlays[1])
    ensures r.p2.locked == LockAfter(g.p2.chosenPlays[1])
    ensures r == g.(p1 := g.p1.(locked := r.p1.locked), p2 := g.p2.(locked := r.p2.locked))
  {
    var card1 := GetCardPlayed(g.p1, false);
    var card2 := GetCardPlayed(g.p2, false);
    g.(p1 := Players.Lock(g.p1, if NotSpecialCard(card1) then card1 else None),
       p2 := Players.Lock(g.p2, if NotSpecialCard(card2) then card2 else None))
  }

  /** `card not in special_attack_cards` for what `get_card_played` returns. */
  predicate NotSpecialCard(card: Option<Card>)
  {
    !(card.Some? && card.value.AttackOf? && card.value.attack in SpecialAttackCards)
  }

  function HalfIndex(isFirstHalf: bool): nat
  {
    if isFirstHalf then 0 else 1
  }

  /** What follows movement in a half-turn: combat, technique stances, then (second half)
      locks. The cells do not change. */
  function FightAfterMoving(moved: GameState, play1: Play, play2: Play, isFirstHalf: bool): (r: GameState)
    requires |moved.p1.chosenPlays| >= 2 && |moved.p2.chosenPlays| >= 2
    requires play1 == moved.p1.chosenPlays[HalfIndex(isFirstHalf)]
    requires play2 == moved.p2.chosenPlays[HalfIndex(isFirstHalf)]
    ensures r.p1.cell == moved.p1.cell && r.p2.cell == moved.p2.cell
    ensures r.p1.hp == moved.p1.hp - (if P1TakesHit(moved, play1, play2) then 1 else 0)
    ensures r.p2.hp == moved.p2.hp - (if P2TakesHit(moved, play1, play2) then 1 else 0)
    ensures r.p1.stance == (if Attacks(play1) && AttackChangesStance(play1.card) then Flip(moved.p1.stance) else moved.p1.stance)
    ensures r.p2.stance == (if Attacks(play2) && AttackChangesStance(play2.card) then Flip(moved.p2.stance) else moved.p2.stance)
    ensures r.p1.locked == (if isFirstHalf then moved.p1.locked else LockAfter(play1))
    ensures r.p2.locked == (if isFirstHalf then moved.p2.locked else LockAfter(play2))
    ensures r.p1.special == moved.p1.special && r.p2.special == moved.p2.special
    ensures r.p1.specialUsed == moved.p1.specialUsed && r.p2.specialUsed == moved.p2.specialUsed
    ensures r.p1.chosenPlays == moved.p1.chosenPlays && r.p2.chosenPlays == moved.p2.chosenPlays
    ensures r.inProgress == moved.inProgress
    ensures |r.summary| >= |moved.summary| && r.summary[..|moved.summary|] == moved.summary
  {
    var fought := ResolveAttacks(moved, play1, play2);
    var turned := ApplyTechniqueStances(fought, play1, play2);
    if isFirstHalf then turned
    else
      assert turned.summary[..|moved.summary|] == moved.summary by {
        assert turned.summary[..|fought.summary|] == fought.summary;
      }
      UpdateLocks(turned)
  }

  /** A play changes its player's stance in exactly one of the two steps of a half-turn:
      Change Stance during movement, Zan-Tetsu and Kesa during combat. */
  lemma StanceChangesOnce(play: Play)
    ensures PlayChangesStance(play) <==>
      (play == Move(ChangeStance)) || (Attacks(play) && AttackChangesStance(play.card))
    ensures !(play == Move(ChangeStance) && Attacks(play))
  {
    if play.Move? {
      MoveActionFacts(play.action);
    }
  }

  /** One half-turn: movement, combat, technique stances, then (second half) locks. */
  function ResolvePlays(g: GameState, isFirstHalf: bool): (r: GameState)
    requires |g.p1.chosenPlays| >= 2 && |g.p2.chosenPlays| >= 2
    ensures var play1 := g.p1.chosenPlays[HalfIndex(isFirstHalf)];
      var play2 := g.p2.chosenPlays[HalfIndex(isFirstHalf)];
      var moved := Movement.ResolveMovement(g, play1, play2);
      && (Ordered(g) ==> Ordered(r))
      && r.p1.cell == moved.p1.cell && r.p2.cell == moved.p2.cell
      && r.p1.hp == g.p1.hp - (if P1TakesHit(moved, play1, play2) then 1 else 0)
      && r.p2.hp == g.p2.hp - (if P2TakesHit(moved, play1, play2) then 1 else 0)
      && (r.p1.stance != g.p1.stance <==> PlayChangesStance(play1))
      && (Attacks(play2) && PlayChangesStance(play2) ==> r.p2.stance == Flip(g.p2.stance))
      && r.p1.stance == (if Attacks(play1) && AttackChangesStance(play1.card) then Flip(moved.p1.stance) else moved.p1.stance)
      && r.p2.stance == (if Attacks(play2) && AttackChangesStance(play2.card) then Flip(moved.p2.stance) else moved.p2.stance)
      && (!PlayChangesStance(play2) ==> r.p2.stance == g.p2.stance)
      && r.p1.locked == (if isFirstHalf then g.p1.locked else LockAfter(play1))
      && r.p2.locked == (if isFirstHalf then g.p2.locked else LockAfter(play2))
    ensures r.p1.special == g.p1.special && r.p2.special == g.p2.special
    ensures r.p1.specialUsed == g.p1.specialUsed && r.p2.specialUsed == g.p2.specialUsed
    ensures r.p1.chosenPlays == g.p1.chosenPlays && r.p2.chosenPlays == g.p2.chosenPlays
    ensures r.inProgress == g.inProgress
    ensures |r.summary| >= |g.summary| && r.summary[..|g.summary|] == g.summary
  {
    var index := HalfIndex(isFirstHalf);
    var play1 := g.p1.chosenPlays[index];
    var play2 := g.p2.chosenPlays[index];
    var moved := Movement.ResolveMovement(g, play1, play2);
    assert moved.summary[..|g.summary|] == g.summary;
    StanceChangesOnce(play1);
    StanceChangesOnce(play2);
    FightAfterMoving(moved, play1, play2, isFirstHalf)
  }

  /** Per half-turn at most one duelist loses hit points, and then exactly one; blades
      that both land cost nobody anything; an attack that lands into a counter costs the
      attacker and spares the counterer. */
  lemma HalfTurnDamage(g: GameState, isFirstHalf: bool)
    requires |g.p1.chosenPlays| >= 2 && |g.p2.chosenPlays| >= 2
    ensures var play1 := g.p1.chosenPlays[HalfIndex(isFirstHalf)];
      var play2 := g.p2.chosenPlays[HalfIndex(isFirstHalf)];
      var moved := Movement.ResolveMovement(g, play1, play2);
      var r := ResolvePlays(g, isFirstHalf);
      && (r.p1.hp == g.p1.hp || r.p2.hp == g.p2.hp)
      && g.p1.hp - 1 <= r.p1.hp <= g.p1.hp && g.p2.hp - 1 <= r.p2.hp <= g.p2.hp
      && (Lands(moved, play1) && Lands(moved, play2) ==> r.p1.hp == g.p1.hp && r.p2.hp == g.p2.hp)
      && (Lands(moved, play1) && Braces(play2) ==> r.p1.hp == g.p1.hp - 1 && r.p2.hp == g.p2.hp)
      && (Lands(moved, play2) && Braces(play1) ==> r.p2.hp == g.p2.hp - 1 && r.p1.hp == g.p1.hp)
  {
    var moved := Movement.ResolveMovement(g, g.p1.chosenPlays[HalfIndex(isFirstHalf)], g.p2.chosenPlays[HalfIndex(isFirstHalf)]);
    HitsAreExclusive(moved, g.p1.chosenPlays[HalfIndex(isFirstHalf)], g.p2.chosenPlays[HalfIndex(isFirstHalf)]);
  }

  /** The hit rule on its own: never both duelists; never anyone when both land; always
      the attacker, and only the attacker, when an attack lands into a counter. */
  lemma HitsAreExclusive(g: GameState, play1: Play, play2: Play)
    ensures !(P1TakesHit(g, play1, play2) && P2TakesHit(g, play1, play2))
    ensures Lands(g, play1) && Lands(g, play2) ==> !P1TakesHit(g, play1, play2) && !P2TakesHit(g, play1, play2)
    ensures Lands(g, play1) && Braces(play2) ==> P1TakesHit(g, play1, play2) && !P2TakesHit(g, play1, play2)
    ensures Lands(g, play2) && Braces(play1) ==> P2TakesHit(g, play1, play2) && !P1TakesHit(g, play1, play2)
  {
  }
}


=== FILE: duel.dfy ===
/** The duel's aggregate state: the two duelists on a five-cell line, the summary lines of
    the current turn and the in-progress flag, with the queries the turn logic shares. */
module Duel {
  import opened Wrappers
  import opened Cards
  import Players

  const BoardSize: int := 5

  datatype Side = P1 | P2

  /** A summary line, abstracted from its text. `side` is the duelist the line is about. */
  datatype Event =
    | MoveLine(side: Side, action: MoveAction)
    | ToeToToe
    | ClashLine(side: Side, card: AttackCard)
    | BladesClash
    | CounterLine(side: Side, card: AttackCard)
    | Reversal(side: Side)
    | BraceWasted(side: Side)
    | WentWide(side: Side)
    | SuccessLine(side: Side, card: AttackCard)
    | MissLine(side: Side, card: AttackCard)
    | TechniqueStance(side: Side, stance: Stance)

  datatype GameState = GameState(
    p1: Players.Player,
    p2: Players.Player,
    summary: seq<Event>,
    inProgress: bool)

  /** Player 1 at the left edge, player 2 at the right edge, each with its own special. */
  function NewGame(special1: AttackCard, special2: AttackCard): (g: GameState)
    requires special1 in SpecialAttackCards && special2 in SpecialAttackCards
    requires special1 != special2
    ensures Valid(g)
    ensures g.p1.cell == 0 && g.p2.cell == BoardSize - 1
    ensures g.p1.hp == 2 && g.p2.hp == 2 && g.summary == []
    ensures g.p1 == Players.NewPlayer(0, special1) && g.p2 == Players.NewPlayer(BoardSize - 1, special2)
    ensures g.inProgress
  {
    GameState(Players.NewPlayer(0, special1), Players.NewPlayer(BoardSize - 1, special2), [], true)
  }

  /** Both on the board and player 1 never to the right of player 2. */
  predicate Ordered(g: GameState)
  {
    0 <= g.p1.cell <= g.p2.cell <= BoardSize - 1
  }

  /** A lock never names a special card: specials clear the lock instead. */
  predicate LockNotSpecial(p: Players.Player)
  {
    p.locked.None? || !(p.locked.value.AttackOf? && IsSpecial(p.locked.value.attack))
  }

  /** What holds between turns of a running duel. */
  predicate Valid(g: GameState)
  {
    && Ordered(g)
    && 1 <= g.p1.hp <= 2 && 1 <= g.p2.hp <= 2
    && g.p1.special in SpecialAttackCards && g.p2.special in SpecialAttackCards
    && g.p1.special != g.p2.special
    && LockNotSpecial(g.p1) && LockNotSpecial(g.p2)
    && g.inProgress
  }

  /** `(winner, loser)`, player 1 being checked first; both `None` while nobody is dead. */
  function CheckForGameEnd(g: GameState): (r: (Option<Side>, Option<Side>))
    ensures r.0.None? <==> !Players.IsDead(g.p1) && !Players.IsDead(g.p2)
    ensures r.0.None? <==> r.1.None?
    ensures r.1 == Some(P1) <==> Players.IsDead(g.p1)
    ensures r.1 == Some(P2) <==> Players.IsDead(g.p2) && !Players.IsDead(g.p1)
    ensures r.0.Some? ==> r.0.value != r.1.value
  {
    if Players.IsDead(g.p1) then (Some(P2), Some(P1))
    else if Players.IsDead(g.p2) then (Some(P1), Some(P2))
    else (None, None)
  }

  /** The card a duelist's first or second play of the turn counts as: the attack card
      itself or the move card owning the action; `None` when that play is not chosen yet. */
  function GetCardPlayed(p: Players.Player, isFirst: bool): (r: Option<Card>)
    ensures var index := if isFirst then 0 else 1;
      && (r.None? <==> |p.chosenPlays| < index + 1)
      && (r.Some? ==> r.value == CardOfPlay(p.chosenPlays[index]))
  {
    var index := if isFirst then 0 else 1;
    if |p.chosenPlays| < index + 1 then None
    else
      match p.chosenPlays[index]
      case Attack(c) =>
        if c in AttackCards || c == Counterattack then Some(AttackOf(c))
        else SpecialFlagMatchesTuple(c); assert false; None
      case Move(m) =>
        if m in Actions(Footwork) then Some(FamilyOf(Footwork))
        else if m in Actions(Tactics) then Some(FamilyOf(Tactics))
        else EachActionInOneFamily(m); assert false; None
  }
}

=== FILE: movement.dfy ===
/** The movement step of a half-turn: simultaneous moves that would cross snap both
    duelists to a shared midpoint; otherwise the Heaven-stance duelist moves first (player 1
    on a tie) and each move is clamped so that nobody passes the other. */
module Movement {
  import opened Wrappers
  import opened Cards
  import Players
  import opened Duel

  /** `min(max(lo, index), hi)`. */
  function Clamp(index: int, lo: int, hi: int): (r: int)
    ensures lo <= hi ==> lo <= r <= hi
    ensures lo <= index <= hi ==> r == index
    ensures lo <= hi && index < lo ==> r == lo
    ensures lo <= hi && index > hi ==> r == hi
    ensures r <= hi
  {
    var atLeast := if lo > index then lo else index;
    if atLeast > hi then hi else atLeast
  }

  /** The step a play makes: its magnitude for a move action, 0 for an attack. */
  function PlayMagnitude(play: Play): int
  {
    if play.Move? then Magnitude(play.action) else 0
  }

  /** The two steps, taken together, would carry the duelists past each other: they add
      up to more than the gap between them. */
  function MovesWouldPass(g: GameState, v1: int, v2: int): (pass: bool)
    ensures pass <==> v1 + v2 > g.p2.cell - g.p1.cell
  {
    g.p1.cell + v1 > g.p2.cell - v2
  }

  /** The two duelists share a stance, both step forward and the steps would cross. */
  predicate Collides(g: GameState, play1: Play, play2: Play)
  {
    && g.p1.stance == g.p2.stance
    && PlayMagnitude(play1) > 0 && PlayMagnitude(play2) > 0
    && MovesWouldPass(g, PlayMagnitude(play1), PlayMagnitude(play2))
  }

  // ---------------------------------------------------------------- midpoint

  /** Python's `round` on a real: nearest integer, ties to the even one. */
  function PyRound(x: real): int
  {
    var f := x.Floor;
    var frac := x - f as real;
    if frac < 0.5 then f
    else if frac > 0.5 then f + 1
    else if f % 2 == 0 then f
    else f + 1
  }

  /** Python's `int` on a real: truncation toward zero. */
  function PyInt(x: real): int
  {
    if x >= 0.0 then x.Floor else -((-x).Floor)
  }

  /** `find_midpoint` computed the way `GameState.find_midpoint` computes it, in floating point (exact
      here: cell sums are tiny). Halves within 0.5 of the centre cell round to it;
      above it the midpoint rounds up, below it down. */
  function FloatMidpoint(cell1: int, cell2: int): int
  {
    var mid := (cell1 + cell2) as real / 2.0;
    var offCentre := if mid >= 2.0 then mid - 2.0 else 2.0 - mid;
    if offCentre <= 0.5 then PyRound(mid)
    else if mid > 2.0 then PyInt(mid + 0.5)
    else PyInt(mid)
  }

  /** The meeting cell of a collision, on the integer sum of the two cells. */
  function FindMidpoint(cell1: int, cell2: int): (r: int)
    ensures 0 <= cell1 <= cell2 <= BoardSize - 1 ==> cell1 <= r <= cell2
  {
    var s := cell1 + cell2;
    if 3 <= s <= 5 then 2
    else if s >= 6 then (s + 1) / 2
    else if s >= 0 then s / 2
    else -((-s) / 2)
  }

  /** The integer midpoint is exactly the floating-point one. */
  lemma MidpointMatchesFloat(cell1: int, cell2: int)
    ensures FindMidpoint(cell1, cell2) == FloatMidpoint(cell1, cell2)
  {
    var s := cell1 + cell2;
    var mid := s as real / 2.0;
    var q := s / 2;
    var odd := s % 2;
    assert s == 2 * q + odd;
    assert mid == q as real + odd as real / 2.0;
    if 3 <= s <= 5 {
      if s == 3 {
        assert mid == 1.5 && mid.Floor == 1;
      } else if s == 4 {
        assert mid == 2.0 && mid.Floor == 2;
      } else {
        assert mid == 2.5 && mid.Floor == 2;
      }
    } else if s >= 6 {
      assert mid + 0.5 == (q + odd) as real + (if odd == 0 then 0.5 else 0.0);
      assert (mid + 0.5).Floor == q + odd;
    } else if s >= 0 {
      assert mid.Floor == q;
    } else {
      var t := -s;
      var tq := t / 2;
      var todd := t % 2;
      assert t == 2 * tq + todd;
      assert -mid == tq as real + todd as real / 2.0;
      assert (-mid).Floor == tq;
    }
  }

  /** With both duelists on the board in order, the midpoint lies between them: a
      collision never carries anyone past their opponent's starting cell. */
  lemma MidpointBetween(cell1: int, cell2: int)
    requires 0 <= cell1 <= cell2 <= BoardSize - 1
    ensures cell1 <= FindMidpoint(cell1, cell2) <= cell2
    ensures var s := cell1 + cell2;
      && (3 <= s <= 5 ==> FindMidpoint(cell1, cell2) == 2)
      && (s >= 6 ==> FindMidpoint(cell1, cell2) == (s + 1) / 2)
      && (s <= 2 ==> FindMidpoint(cell1, cell2) == s / 2)
  {
  }

  /** On the board the three-way rule comes down to Python's `round` of the plain average:
      half-even rounding sends the sums 1 and 5 down and 3 and 7 up, exactly as the
      truncation below the centre band and the rounding up above it do. */
  lemma MidpointIsRoundedAverage(cell1: int, cell2: int)
    requires 0 <= cell1 <= BoardSize - 1 && 0 <= cell2 <= BoardSize - 1
    ensures FindMidpoint(cell1, cell2) == PyRound((cell1 + cell2) as real / 2.0)
  {
    var s := cell1 + cell2;
    var mid := s as real / 2.0;
    assert mid == (s / 2) as real + (s % 2) as real / 2.0;
    assert mid.Floor == s / 2;
  }

  // ---------------------------------------------------------------- the two movers

  function MoveLines(side: Side, play: Play): (r: seq<Event>)
    ensures ToeToToe !in r
  {
    if play.Move? then [MoveLine(side, play.action)] else []
  }

  /** Where a step of magnitude `m` from `start` may end on the board: a forward step
      ends between the start and its full length (it may be cut short by the opponent),
      a backward step always completes unless the edge stops it. `towardRight` tells
      which way forward is: right for player 1, left for player 2. */
  predicate WithinReach(start: int, m: int, end: int, towardRight: bool)
  {
    if m >= 0 then
      if towardRight then start <= end <= start + m else start - m <= end <= start
    else
      if towardRight then end == (if start + m < 0 then 0 else start + m)
      else end == (if start - m > BoardSize - 1 then BoardSize - 1 else start - m)
  }

  /** Player 1 steps, clamped between the left edge and player 2's current cell. */
  function P1Moves(g: GameState, play1: Play): (r: GameState)
    ensures r.p2 == g.p2 && r.inProgress == g.inProgress
    ensures r.summary == g.summary + MoveLines(P1, play1)
    ensures r.p1 == g.p1.(cell := r.p1.cell, stance := r.p1.stance)
    ensures r.p1.stance == (if play1 == Move(ChangeStance) then Flip(g.p1.stance) else g.p1.stance)
    ensures 0 <= g.p2.cell ==> 0 <= r.p1.cell <= g.p2.cell
    ensures var target := g.p1.cell + PlayMagnitude(play1);
      && (0 <= target <= g.p2.cell ==> r.p1.cell == target)
      && (0 <= g.p2.cell < target ==> r.p1.cell == g.p2.cell)
      && (target < 0 <= g.p2.cell ==> r.p1.cell == 0)
    ensures 0 <= g.p1.cell <= g.p2.cell ==> WithinReach(g.p1.cell, PlayMagnitude(play1), r.p1.cell, true)
  {
    var cell := Clamp(g.p1.cell + PlayMagnitude(play1), 0, g.p2.cell);
    var stance := if play1 == Move(ChangeStance) then Flip(g.p1.stance) else g.p1.stance;
    g.(p1 := g.p1.(cell := cell, stance := stance), summary := g.summary + MoveLines(P1, play1))
  }

  /** Player 2 steps, clamped between player 1's current cell and the right edge. Its
      Change Stance sets the opposite of player 1's current stance, not of its own. */
  function P2Moves(g: GameState, play2: Play): (r: GameState)
    ensures r.p1 == g.p1 && r.inProgress == g.inProgress
    ensures r.summary == g.summary + MoveLines(P2, play2)
    ensures r.p2 == g.p2.(cell := r.p2.cell, stance := r.p2.stance)
    ensures r.p2.stance == (if play2 == Move(ChangeStance) then Flip(g.p1.stance) else g.p2.stance)
    ensures g.p1.cell <= BoardSize - 1 ==> g.p1.cell <= r.p2.cell <= BoardSize - 1
    ensures var target := g.p2.cell - PlayMagnitude(play2);
      && (g.p1.cell <= target <= BoardSize - 1 ==> r.p2.cell == target)
      && (target < g.p1.cell <= BoardSize - 1 ==> r.p2.cell == g.p1.cell)
      && (g.p1.cell <= BoardSize - 1 < target ==> r.p2.cell == BoardSize - 1)
    ensures g.p1.cell <= g.p2.cell <= BoardSize - 1 ==> WithinReach(g.p2.cell, PlayMagnitude(play2), r.p2.cell, false)
  {
    var cell := Clamp(g.p2.cell - PlayMagnitude(play2), g.p1.cell, BoardSize - 1);
    var stance := if play2 == Move(ChangeStance) then Flip(g.p1.stance) else g.p2.stance;
    g.(p2 := g.p2.(cell := cell, stance := stance), summary := g.summary + MoveLines(P2, play2))
  }

  /** Outside a collision, player 1 moves first when the stances are equal or it is in
      Heaven; otherwise player 2, then in Heaven, moves first. */
  predicate P1MovesFirst(g: GameState)
  {
    g.p1.stance == g.p2.stance || g.p1.stance == Heaven
  }

  /** Both duelists' moves, before the toe-to-toe check. */
  function MoveBoth(g: GameState, play1: Play, play2: Play): (r: GameState)
    ensures Ordered(g) ==> Ordered(r)
    ensures Collides(g, play1, play2) ==>
      r.p1.cell == r.p2.cell == FindMidpoint(g.p1.cell, g.p2.cell)
    ensures !Collides(g, play1, play2) && P1MovesFirst(g) ==>
      && r.p1.cell == Clamp(g.p1.cell + PlayMagnitude(play1), 0, g.p2.cell)
      && r.p2.cell == Clamp(g.p2.cell - PlayMagnitude(play2), r.p1.cell, BoardSize - 1)
    ensures !Collides(g, play1, play2) && !P1MovesFirst(g) ==>
      && r.p2.cell == Clamp(g.p2.cell - PlayMagnitude(play2), g.p1.cell, BoardSize - 1)
      && r.p1.cell == Clamp(g.p1.cell + PlayMagnitude(play1), 0, r.p2.cell)
    ensures r.p1.stance == (if play1 == Move(ChangeStance) then Flip(g.p1.stance) else g.p1.stance)
    ensures play2 != Move(ChangeStance) ==> r.p2.stance == g.p2.stance
    ensures play2 == Move(ChangeStance) ==>
      r.p2.stance == Flip(if P1MovesFirst(g) then r.p1.stance else g.p1.stance)
    ensures r.p1 == g.p1.(cell := r.p1.cell, stance := r.p1.stance)
    ensures r.p2 == g.p2.(cell := r.p2.cell, stance := r.p2.stance)
    ensures r.inProgress == g.inProgress
    ensures r.summary == g.summary + MoveLines(P1, play1) + MoveLines(P2, play2)
         || r.summary == g.summary + MoveLines(P2, play2) + MoveLines(P1, play1)
  {
    if Collides(g, play1, play2) then
      var mid := FindMidpoint(g.p1.cell, g.p2.cell);
      assert Ordered(g) ==> 0 <= mid <= BoardSize - 1 by {
        if Ordered(g) { MidpointBetween(g.p1.cell, g.p2.cell); }
      }
      g.(p1 := g.p1.(cell := mid), p2 := g.p2.(cell := mid),
         summary := g.summary + MoveLines(P1, play1) + MoveLines(P2, play2))
    else if P1MovesFirst(g) then
      P2Moves(P1Moves(g, play1), play2)
    else
      // the stances differ and player 1 is in Earth: player 2 is in Heaven and moves first
      P1Moves(P2Moves(g, play2), play1)
  }

  /** Movement of one half-turn, with the toe-to-toe line when the duelists close to the
      same cell. */
  function ResolveMovement(g: GameState, play1: Play, play2: Play): (r: GameState)
    ensures Ordered(g) ==> Ordered(r)
    ensures Collides(g, play1, play2) ==>
      r.p1.cell == r.p2.cell == FindMidpoint(g.p1.cell, g.p2.cell)
    ensures !Collides(g, play1, play2) && P1MovesFirst(g) ==>
      && r.p1.cell == Clamp(g.p1.cell + PlayMagnitude(play1), 0, g.p2.cell)
      && r.p2.cell == Clamp(g.p2.cell - PlayMagnitude(play2), r.p1.cell, BoardSize - 1)
    ensures !Collides(g, play1, play2) && !P1MovesFirst(g) ==>
      && r.p2.cell == Clamp(g.p2.cell - PlayMagnitude(play2), g.p1.cell, BoardSize - 1)
      && r.p1.cell == Clamp(g.p1.cell + PlayMagnitude(play1), 0, r.p2.cell)
    ensures r.p1.stance == (if play1 == Move(ChangeStance) then Flip(g.p1.stance) else g.p1.stance)
    ensures play2 != Move(ChangeStance) ==> r.p2.stance == g.p2.stance
    ensures play2 == Move(ChangeStance) ==>
      r.p2.stance == Flip(if P1MovesFirst(g) then r.p1.stance else g.p1.stance)
    ensures r.p1 == g.p1.(cell := r.p1.cell, stance := r.p1.stance)
    ensures r.p2 == g.p2.(cell := r.p2.cell, stance := r.p2.stance)
    ensures r.inProgress == g.inProgress
    ensures |r.summary| >= |g.summary| && r.summary[..|g.summary|] == g.summary
    ensures ToeToToe in r.summary[|g.summary|..] <==> r.p1.cell == r.p2.cell && g.p1.cell != g.p2.cell
  {
    var moved := MoveBoth(g, play1, play2);
    NoToeToToeYet(g.summary, MoveLines(P1, play1), MoveLines(P2, play2), moved.summary);
    AddToeToToe(g, moved)
  }

  /** Movement lines, in either order, add no toe-to-toe line and keep what came before. */
  lemma NoToeToToeYet(before: seq<Event>, a: seq<Event>, b: seq<Event>, after: seq<Event>)
    requires ToeToToe !in a && ToeToToe !in b
    requires after == before + a + b || after == before + b + a
    ensures |after| >= |before| && after[..|before|] == before
    ensures ToeToToe !in after[|before|..]
  {
    if after == before + a + b {
      assert after[|before|..] == a + b;
    } else {
      assert after[|before|..] == b + a;
    }
  }

  /** The toe-to-toe line, appended when movement brought the duelists onto one cell. */
  function AddToeToToe(g: GameState, moved: GameState): (r: GameState)
    requires |moved.summary| >= |g.summary| && moved.summary[..|g.summary|] == g.summary
    requires ToeToToe !in moved.summary[|g.summary|..]
    ensures r.p1 == moved.p1 && r.p2 == moved.p2 && r.inProgress == moved.inProgress
    ensures |r.summary| >= |g.summary| && r.summary[..|g.summary|] == g.summary
    ensures ToeToToe in r.summary[|g.summary|..] <==> r.p1.cell == r.p2.cell && g.p1.cell != g.p2.cell
  {
    var lines := moved.summary[|g.summary|..];
    assert moved.summary == g.summary + lines;
    if moved.p1.cell == moved.p2.cell && g.p1.cell != g.p2.cell then
      assert (moved.summary + [ToeToToe])[|g.summary|..] == lines + [ToeToToe];
      moved.(summary := moved.summary + [ToeToToe])
    else
      moved
  }

  // ---------------------------------------------------------------- properties

  /** Nobody oversteps their own move, a retreat always completes up to the edge, and a
      duelist who makes no move keeps their cell. */
  lemma MovesWithinReach(g: GameState, play1: Play, play2: Play)
    requires Ordered(g)
    ensures var r := ResolveMovement(g, play1, play2);
      && WithinReach(g.p1.cell, PlayMagnitude(play1), r.p1.cell, true)
      && WithinReach(g.p2.cell, PlayMagnitude(play2), r.p2.cell, false)
  {
    if Collides(g, play1, play2) {
      CollisionWithinReach(g, play1, play2);
    }
  }

  lemma CollisionWithinReach(g: GameState, play1: Play, play2: Play)
    requires Ordered(g) && Collides(g, play1, play2)
    ensures var mid := FindMidpoint(g.p1.cell, g.p2.cell);
      && WithinReach(g.p1.cell, PlayMagnitude(play1), mid, true)
      && WithinReach(g.p2.cell, PlayMagnitude(play2), mid, false)
  {
    MidpointBetween(g.p1.cell, g.p2.cell);
    MoveActionFacts(play1.action);
    MoveActionFacts(play2.action);
  }

  /** When the stances differ, the Heaven duelist moves first: where it ends does not
      depend on what the Earth duelist plays. */
  lemma HeavenMovesFirst(g: GameState, play1: Play, play2: Play, other1: Play, other2: Play)
    requires g.p1.stance != g.p2.stance
    ensures g.p1.stance == Heaven ==>
      ResolveMovement(g, play1, play2).p1.cell == ResolveMovement(g, play1, other2).p1.cell
    ensures g.p2.stance == Heaven ==>
      ResolveMovement(g, play1, play2).p2.cell == ResolveMovement(g, other1, play2).p2.cell
  {
  }

  /** With equal stances and no collision player 1 moves first, so its destination does
      not depend on what player 2 plays. */
  lemma TieGoesToPlayer1(g: GameState, play1: Play, play2: Play, other2: Play)
    requires g.p1.stance == g.p2.stance
    requires !Collides(g, play1, play2) && !Collides(g, play1, other2)
    ensures ResolveMovement(g, play1, play2).p1.cell == ResolveMovement(g, play1, other2).p1.cell
  {
  }

  /** Player 2's Change Stance leaves it in the stance opposite to player 1's stance at
      the moment player 2 moves, whatever player 2's own stance was. */
  lemma P2ChangeStanceReadsP1(g: GameState, play1: Play)
    ensures var r := ResolveMovement(g, play1, Move(ChangeStance));
      if g.p1.stance == g.p2.stance || g.p1.stance == Heaven then r.p2.stance == Flip(r.p1.stance)
      else r.p2.stance == Heaven
  {
  }

  /** Two consequences of the above: from equal stances a double Change Stance flips only
      player 1, and against a Heaven player 1 that stays put player 2's Change Stance
      out of Earth does nothing. */
  lemma P2ChangeStanceQuirk(g: GameState)
    ensures g.p1.stance == g.p2.stance ==>
      var r := ResolveMovement(g, Move(ChangeStance), Move(ChangeStance));
      r.p1.stance != g.p1.stance && r.p2.stance == g.p2.stance
    ensures g.p1.stance == Heaven && g.p2.stance == Earth ==>
      ResolveMovement(g, Attack(BalancedStrike), Move(ChangeStance)).p2.stance == Earth
  {
    P2ChangeStanceReadsP1(g, Move(ChangeStance));
    P2ChangeStanceReadsP1(g, Attack(BalancedStrike));
  }

  /** The scenario of two same-stance charges from opposite edges: the charges reach the
      centre and nobody is carried past it. */
  lemma ChargesFromTheEdgesMeetInTheCentre(g: GameState)
    requires g.p1.cell == 0 && g.p2.cell == BoardSize - 1 && g.p1.stance == g.p2.stance
    ensures var r := ResolveMovement(g, Move(Charge), Move(Charge));
      r.p1.cell == 2 && r.p2.cell == 2 && ToeToToe in r.summary[|g.summary|..]
  {
  }
}

=== FILE: names.dfy ===
/** Card names are compared the way Python compares `str` values: by code point,
    left to right, a proper prefix sorting before its extensions. */
module Names {

  /** `a < b` on Python strings. */
  predicate Less(a: string, b: string)
    decreases |a|
  {
    if |a| == 0 then |b| != 0
    else if |b| == 0 then false
    else if a[0] != b[0] then a[0] < b[0]
    else Less(a[1..], b[1..])
  }

  lemma {:induction false} LessIrreflexive(a: string)
    ensures !Less(a, a)
    decreases |a|
  {
    if |a| != 0 {
      LessIrreflexive(a[1..]);
    }
  }

  lemma {:induction false} LessTransitive(a: string, b: string, c: string)
    requires Less(a, b) && Less(b, c)
    ensures Less(a, c)
    decreases |a|
  {
    if |a| != 0 && a[0] == b[0] && b[0] == c[0] {
      LessTransitive(a[1..], b[1..], c[1..]);
    }
  }

  /** Two different names are always ordered one way or the other. */
  lemma {:induction false} LessConnected(a: string, b: string)
    requires a != b
    ensures Less(a, b) || Less(b, a)
    decreases |a|
  {
    if |a| != 0 && |b| != 0 && a[0] == b[0] {
      assert a == [a[0]] + a[1..];
      assert b == [b[0]] + b[1..];
      LessConnected(a[1..], b[1..]);
    }
  }

  lemma LessAsymmetric(a: string, b: string)
    requires Less(a, b)
    ensures !Less(b, a)
  {
    if Less(b, a) {
      LessTransitive(a, b, a);
      LessIrreflexive(a);
    }
  }
}

=== FILE: players.dfy ===
/** One duelist's state and its small mutators, each a pure update of the record.
    Display name, mention, emblem and the originating chat interaction are presentation
    data and are not part of this record. */
module Players {
  import opened Wrappers
  import opened Cards

  datatype Player = Player(
    cell: int,
    special: AttackCard,
    chosenPlays: seq<Play>,
    hp: int,
    specialUsed: bool,
    locked: Option<Card>,
    stance: Stance)

  const StartingHp: int := 2

  /** A duelist as created at the start of a duel. */
  function NewPlayer(cell: int, special: AttackCard): (p: Player)
    ensures p.cell == cell && p.special == special
    ensures p.hp == 2 && p.stance == Heaven
    ensures p.chosenPlays == [] && !p.specialUsed && p.locked == None
  {
    Player(cell, special, [], StartingHp, false, None, Heaven)
  }

  function Lock(p: Player, card: Option<Card>): (r: Player)
    ensures r.locked == card
    ensures r.(locked := p.locked) == p
  {
    p.(locked := card)
  }

  function TakeHit(p: Player): (r: Player)
    ensures r.hp == p.hp - 1
    ensures r.(hp := p.hp) == p
  {
    p.(hp := p.hp - 1)
  }

  /** A duelist whose hit points have run out; since hits come one at a time, that is
      hp 0 for a duelist that started with a non-negative count. */
  function IsDead(p: Player): (dead: bool)
    ensures p.hp >= 0 ==> (dead <==> p.hp == 0)
    ensures !dead ==> p.hp >= 1
  {
    p.hp <= 0
  }

  /** Flips Heaven and Earth. Named after `Player.change_stance`; the move action of the
      same name is `Cards.MoveAction.ChangeStance`. */
  function ChangeStance(p: Player): (r: Player)
    ensures r.stance == Flip(p.stance) && r.stance != p.stance
    ensures r.(stance := p.stance) == p
  {
    p.(stance := if p.stance == Heaven then Earth else Heaven)
  }

  function ClearPlays(p: Player): (r: Player)
    ensures r.chosenPlays == []
    ensures r.(chosenPlays := p.chosenPlays) == p
  {
    p.(chosenPlays := [])
  }

  function AddQueuedPlay(p: Player, play: Play): (r: Player)
    ensures |r.chosenPlays| == |p.chosenPlays| + 1
    ensures r.chosenPlays[..|p.chosenPlays|] == p.chosenPlays
    ensures r.chosenPlays[|p.chosenPlays|] == play
    ensures r.(chosenPlays := p.chosenPlays) == p
  {
    p.(chosenPlays := p.chosenPlays + [play])
  }

  /** Changing stance twice gives back the same duelist. */
  lemma ChangeStanceTwice(p: Player)
    ensures ChangeStance(ChangeStance(p)) == p
  {
  }

  /** `n` hits in a row. */
  function Hits(p: Player, n: nat): Player
  {
    if n == 0 then p else TakeHit(Hits(p, n - 1))
  }

  /** Taking `n` hits lowers hp by exactly `n` and touches nothing else. */
  lemma {:induction false} HitsLowerHp(p: Player, n: nat)
    ensures Hits(p, n).hp == p.hp - n
    ensures Hits(p, n).(hp := p.hp) == p
  {
    if n != 0 {
      HitsLowerHp(p, n - 1);
    }
  }

  /** A duelist is dead exactly once it has taken as many hits as it had hit points;
      a fresh duelist therefore falls to the second hit and not before. */
  lemma DeadAfterHits(p: Player, n: nat)
    ensures IsDead(Hits(p, n)) <==> n >= p.hp
    ensures p.hp == StartingHp ==> (IsDead(Hits(p, n)) <==> n >= 2)
  {
    HitsLowerHp(p, n);
  }
}

=== FILE: selection.dfy ===
/** The options offered to a duelist at each of the two choice steps of a turn, and the
    two-step choice itself. Options are the available attack cards sorted by name followed
    by the available move actions sorted by name. */
module Selection {
  import opened Wrappers
  import opened Cards
  import Names
  import Players
  import opened Duel

  // ---------------------------------------------------------------- sequences

  predicate NoDup<T(==)>(s: seq<T>)
  {
    forall i, j :: 0 <= i < j < |s| ==> s[i] != s[j]
  }

  lemma NoDupConcat<T>(a: seq<T>, b: seq<T>)
    requires NoDup(a) && NoDup(b)
    requires forall x :: x in a ==> x !in b
    ensures NoDup(a + b)
  {
    forall i, j | 0 <= i < j < |a + b|
      ensures (a + b)[i] != (a + b)[j]
    {
      if i < |a| && j >= |a| {
        assert (a + b)[i] in a && (a + b)[j] in b;
      }
    }
  }

  /** The elements of `xs` that satisfy `keep`, in order (a list comprehension's filter). */
  function Keep<T(==,!new)>(xs: seq<T>, keep: T -> bool): (r: seq<T>)
    ensures forall x :: x in r <==> x in xs && keep(x)
    ensures NoDup(xs) ==> NoDup(r)
    decreases |xs|
  {
    if |xs| == 0 then []
    else
      var rest := Keep(xs[1..], keep);
      assert NoDup(xs) ==> xs[0] !in xs[1..];
      if keep(xs[0]) then
        assert NoDup(xs) ==> NoDup([xs[0]] + rest) by {
          if NoDup(xs) {
            assert NoDup([xs[0]]);
            NoDupConcat([xs[0]], rest);
          }
        }
        [xs[0]] + rest
      else rest
  }

  // ---------------------------------------------------------------- sorting by name

  /** `s` is strictly ascending under `key`. The lemmas below are stated for any key so
      that their proofs never look inside the card names. */
  predicate SortedBy<T>(s: seq<T>, key: T -> string)
  {
    forall i, j :: 0 <= i < j < |s| ==> Names.Less(key(s[i]), key(s[j]))
  }

  predicate DistinctKeys<T>(s: seq<T>, key: T -> string)
  {
    forall i, j :: 0 <= i < j < |s| ==> key(s[i]) != key(s[j])
  }

  predicate StrictlySorted(s: seq<Play>)
  {
    SortedBy(s, PlayName)
  }

  lemma PrependSorted<T>(y: T, s: seq<T>, key: T -> string)
    requires SortedBy(s, key)
    requires forall z :: z in s ==> Names.Less(key(y), key(z))
    ensures SortedBy([y] + s, key)
  {
    var t := [y] + s;
    forall i, j | 0 <= i < j < |t|
      ensures Names.Less(key(t[i]), key(t[j]))
    {
      assert t[j] == s[j - 1];
      if i == 0 {
        assert s[j - 1] in s;
      } else {
        assert t[i] == s[i - 1];
      }
    }
  }

  lemma BelowHead<T>(x: T, s: seq<T>, key: T -> string)
    requires SortedBy(s, key) && |s| > 0
    requires Names.Less(key(x), key(s[0]))
    ensures forall z :: z in s ==> Names.Less(key(x), key(z))
  {
    forall z | z in s
      ensures Names.Less(key(x), key(z))
    {
      var j :| 0 <= j < |s| && s[j] == z;
      if j > 0 {
        Names.LessTransitive(key(x), key(s[0]), key(z));
      }
    }
  }

  lemma AboveHead<T>(s: seq<T>, x: T, rest: seq<T>, key: T -> string)
    requires SortedBy(s, key) && |s| > 0
    requires Names.Less(key(s[0]), key(x))
    requires multiset(rest) == multiset(s[1..]) + multiset{x}
    ensures forall z :: z in rest ==> Names.Less(key(s[0]), key(z))
  {
    forall z | z in rest
      ensures Names.Less(key(s[0]), key(z))
    {
      assert z in multiset(rest);
      if z != x {
        assert z in multiset(s[1..]);
        var j :| 0 <= j < |s[1..]| && s[1..][j] == z;
        assert s[j + 1] == z;
      }
    }
  }

  /** One step of insertion sort: `x` goes before the first element whose key is larger. */
  function InsertBy<T>(x: T, s: seq<T>, key: T -> string): (r: seq<T>)
    requires SortedBy(s, key)
    requires forall z :: z in s ==> key(z) != key(x)
    ensures SortedBy(r, key)
    ensures multiset(r) == multiset(s) + multiset{x}
    decreases |s|
  {
    if |s| == 0 then [x]
    else if Names.Less(key(x), key(s[0])) then
      BelowHead(x, s, key);
      PrependSorted(x, s, key);
      [x] + s
    else
      assert s == [s[0]] + s[1..];
      assert s[0] in s;
      var rest := InsertBy(x, s[1..], key);
      Names.LessConnected(key(x), key(s[0]));
      AboveHead(s, x, rest, key);
      PrependSorted(s[0], rest, key);
      [s[0]] + rest
  }

  /** Sorting ascending by `key`, for keys that are pairwise different. */
  function SortBy<T>(xs: seq<T>, key: T -> string): (r: seq<T>)
    requires DistinctKeys(xs, key)
    ensures SortedBy(r, key)
    ensures multiset(r) == multiset(xs)
    decreases |xs|
  {
    if |xs| == 0 then []
    else
      assert xs == [xs[0]] + xs[1..];
      var rest := SortBy(xs[1..], key);
      assert forall z :: z in rest ==> key(z) != key(xs[0]) by {
        forall z | z in rest
          ensures key(z) != key(xs[0])
        {
          assert z in multiset(xs[1..]);
          var j :| 0 <= j < |xs[1..]| && xs[1..][j] == z;
          assert xs[j + 1] == z;
        }
      }
      InsertBy(xs[0], rest, key)
  }

  lemma SortedHasNoDup<T>(s: seq<T>, key: T -> string)
    requires SortedBy(s, key)
    ensures NoDup(s)
  {
    forall i, j | 0 <= i < j < |s|
      ensures s[i] != s[j]
    {
      if s[i] == s[j] {
        Names.LessIrreflexive(key(s[i]));
      }
    }
  }

  /** Different plays have different names. */
  lemma NamesOfDistinctPlays(xs: seq<Play>)
    requires NoDup(xs)
    ensures DistinctKeys(xs, PlayName)
  {
    forall i, j | 0 <= i < j < |xs|
      ensures PlayName(xs[i]) != PlayName(xs[j])
    {
      if PlayName(xs[i]) == PlayName(xs[j]) {
        PlayNamesDistinct(xs[i], xs[j]);
      }
    }
  }

  /** Python's `list.sort()` on cards or move actions: ascending by name. Names are
      distinct, so the order is strict. */
  function SortByName(xs: seq<Play>): (r: seq<Play>)
    requires NoDup(xs)
    ensures StrictlySorted(r)
    ensures multiset(r) == multiset(xs)
  {
    NamesOfDistinctPlays(xs);
    SortBy(xs, PlayName)
  }

  /** Sorting by name keeps exactly the same plays and leaves no duplicates. */
  lemma SortKeepsPlays(xs: seq<Play>)
    requires NoDup(xs)
    ensures forall x :: x in SortByName(xs) <==> x in xs
    ensures StrictlySorted(SortByName(xs)) && NoDup(SortByName(xs))
  {
    var r := SortByName(xs);
    forall x
      ensures x in r <==> x in xs
    {
      assert x in r <==> x in multiset(r);
      assert x in xs <==> x in multiset(xs);
    }
    SortedHasNoDup(r, PlayName);
  }

  // ---------------------------------------------------------------- building the options

  function AsAttackPlays(cards: seq<AttackCard>): (r: seq<Play>)
    ensures forall x :: x in r <==> x.Attack? && x.card in cards
    ensures NoDup(cards) ==> NoDup(r)
  {
    var r := seq(|cards|, i requires 0 <= i < |cards| => Attack(cards[i]));
    assert forall c :: c in cards ==> Attack(c) in r by {
      forall c | c in cards ensures Attack(c) in r {
        var i :| 0 <= i < |cards| && cards[i] == c;
        assert r[i] == Attack(c);
      }
    }
    r
  }

  function MovesOf(f: MoveCard): (r: seq<Play>)
    ensures forall x :: x in r <==> x.Move? && FamilyOfAction(x.action) == f
    ensures NoDup(r)
  {
    var actions := Actions(f);
    var r := seq(|actions|, i requires 0 <= i < |actions| => Move(actions[i]));
    assert forall m :: m in actions <==> FamilyOfAction(m) == f by {
      forall m ensures m in actions <==> FamilyOfAction(m) == f {
        EachActionInOneFamily(m);
      }
    }
    assert forall m :: m in actions ==> Move(m) in r by {
      forall m | m in actions ensures Move(m) in r {
        var i :| 0 <= i < |actions| && actions[i] == m;
        assert r[i] == Move(m);
      }
    }
    r
  }

  /** `chain(*[move.actions for move in families])`. */
  function FlattenActions(families: seq<MoveCard>): (r: seq<Play>)
    ensures forall x :: x in r <==> x.Move? && FamilyOfAction(x.action) in families
    ensures NoDup(families) ==> NoDup(r)
    decreases |families|
  {
    if |families| == 0 then []
    else
      var head := MovesOf(families[0]);
      var rest := FlattenActions(families[1..]);
      assert forall f :: f in families <==> f == families[0] || f in families[1..] by {
        assert families == [families[0]] + families[1..];
      }
      assert NoDup(families) ==> NoDup(head + rest) by {
        if NoDup(families) {
          assert families[0] !in families[1..];
          NoDupConcat(head, rest);
        }
      }
      head + rest
  }

  function EffectiveStance(p: Players.Player, willSwitchStance: bool): Stance
  {
    if willSwitchStance then Flip(p.stance) else p.stance
  }

  /** A regular attack card that is neither locked nor this turn's first play. */
  predicate RegularAvailable(p: Players.Player, first: Option<Card>, c: AttackCard)
  {
    p.locked != Some(AttackOf(c)) && !IsSpecial(c) && first != Some(AttackOf(c))
  }

  predicate FitsStance(c: AttackCard, stance: Stance)
  {
    RequiresStance(c) == Some(stance) || RequiresStance(c) == None
  }

  predicate FamilyAvailable(p: Players.Player, first: Option<Card>, f: MoveCard)
  {
    p.locked != Some(FamilyOf(f)) && first != Some(FamilyOf(f))
  }

  /** What a duelist may pick, stated per play, independently of how the list is built. */
  predicate Offered(p: Players.Player, willSwitchStance: bool, x: Play)
  {
    match x
    case Attack(c) => AttackOffered(p, willSwitchStance, c)
    case Move(m) => FamilyAvailable(p, GetCardPlayed(p, true), FamilyOfAction(m))
  }

  /** A regular attack card that is free, or the duelist's own unused special, provided
      it can be played from the effective stance. */
  predicate AttackOffered(p: Players.Player, willSwitchStance: bool, c: AttackCard)
  {
    && ((c in AttackCards && RegularAvailable(p, GetCardPlayed(p, true), c)) || (c == p.special && !p.specialUsed))
    && FitsStance(c, EffectiveStance(p, willSwitchStance))
  }

  /** The attack part of the options, sorted by name. */
  function AttackOptions(p: Players.Player, willSwitchStance: bool): (r: seq<Play>)
    requires p.special in SpecialAttackCards
    ensures forall x :: x in r <==> x.Attack? && AttackOffered(p, willSwitchStance, x.card)
    ensures StrictlySorted(r) && NoDup(r)
  {
    var first := GetCardPlayed(p, true);
    var stance := EffectiveStance(p, willSwitchStance);
    var regular := Keep(AttackCards, c => RegularAvailable(p, first, c));
    var special := if !p.specialUsed then [p.special] else [];
    var withSpecial := regular + special;
    assert NoDup(AttackCards);
    assert NoDup(withSpecial) by {
      SpecialFlagMatchesTuple(p.special);
      NoDupConcat(regular, special);
    }
    var onStance := Keep(withSpecial, c => FitsStance(c, stance));
    assert forall c :: c in regular <==> c in AttackCards && RegularAvailable(p, first, c);
    assert forall c :: c in withSpecial <==> c in regular || c in special;
    assert forall c :: c in onStance <==> ((c in AttackCards && RegularAvailable(p, first, c)) || (c == p.special && !p.specialUsed)) && FitsStance(c, stance);
    var unsorted := AsAttackPlays(onStance);
    SortKeepsPlays(unsorted);
    SortByName(unsorted)
  }

  /** The move part of the options: the actions of the free move cards, sorted by name. */
  function MoveOptions(p: Players.Player): (r: seq<Play>)
    ensures forall x :: x in r <==> x.Move? && FamilyAvailable(p, GetCardPlayed(p, true), FamilyOfAction(x.action))
    ensures StrictlySorted(r) && NoDup(r)
  {
    var first := GetCardPlayed(p, true);
    var families := Keep(MoveCards, f => FamilyAvailable(p, first, f));
    assert NoDup(MoveCards);
    var unsorted := FlattenActions(families);
    SortKeepsPlays(unsorted);
    SortByName(unsorted)
  }

  /** The option list of one choice step: available attacks sorted by name, then
      available move actions sorted by name. */
  function MakePlaySelection(p: Players.Player, willSwitchStance: bool): (r: seq<Play>)
    requires p.special in SpecialAttackCards
    ensures forall x :: x in r <==> Offered(p, willSwitchStance, x)
    ensures forall i, j :: 0 <= i < j < |r| && r[i].Move? ==> r[j].Move?
    ensures forall i, j :: 0 <= i < j < |r| && r[i].Attack? == r[j].Attack? ==>
      Names.Less(PlayName(r[i]), PlayName(r[j]))
    ensures NoDup(r)
  {
    var attacks := AttackOptions(p, willSwitchStance);
    var moves := MoveOptions(p);
    NoDupConcat(attacks, moves);
    AttacksThenMoves(attacks, moves);
    attacks + moves
  }

  /** Two sorted groups, attacks before moves, make a list sorted within each group. */
  lemma AttacksThenMoves(attacks: seq<Play>, moves: seq<Play>)
    requires StrictlySorted(attacks) && StrictlySorted(moves)
    requires forall x :: x in attacks ==> x.Attack?
    requires forall x :: x in moves ==> x.Move?
    ensures var r := attacks + moves;
      && (forall i, j :: 0 <= i < j < |r| && r[i].Move? ==> r[j].Move?)
      && (forall i, j :: 0 <= i < j < |r| && r[i].Attack? == r[j].Attack? ==>
           Names.Less(PlayName(r[i]), PlayName(r[j])))
  {
    var r := attacks + moves;
    forall i, j | 0 <= i < j < |attacks|
      ensures Names.Less(PlayName(r[i]), PlayName(r[j]))
    {
      assert r[i] == attacks[i] && r[j] == attacks[j];
    }
    forall i, j | |attacks| <= i < j < |r|
      ensures Names.Less(PlayName(r[i]), PlayName(r[j]))
    {
      assert r[i] == moves[i - |attacks|] && r[j] == moves[j - |attacks|];
    }
    forall i | 0 <= i < |r|
      ensures r[i].Attack? <==> i < |attacks|
    {
      if i < |attacks| {
        assert r[i] in attacks;
      } else {
        assert r[i] in moves;
      }
    }
  }

  /** Under the engine's invariants the options never include the locked card or family,
      this turn's first card or family, another duelist's special or a used special, and
      every attack in them can be played from the effective stance. */
  lemma SelectionRespectsRestrictions(p: Players.Player, willSwitchStance: bool)
    requires p.special in SpecialAttackCards
    requires LockNotSpecial(p)
    requires |p.chosenPlays| > 0 && IsSpecialPlay(p.chosenPlays[0]) ==> p.specialUsed
    ensures forall x :: x in MakePlaySelection(p, willSwitchStance) ==>
      && Some(CardOfPlay(x)) != p.locked
      && Some(CardOfPlay(x)) != GetCardPlayed(p, true)
      && (x.Attack? && IsSpecial(x.card) ==> x.card == p.special && !p.specialUsed)
      && (x.Attack? ==> FitsStance(x.card, EffectiveStance(p, willSwitchStance)))
  {
    forall x | x in MakePlaySelection(p, willSwitchStance)
      ensures Some(CardOfPlay(x)) != p.locked
      ensures Some(CardOfPlay(x)) != GetCardPlayed(p, true)
    {
      if x.Attack? {
        SpecialFlagMatchesTuple(x.card);
      }
    }
  }

  // ---------------------------------------------------------------- the choice protocol

  /** A duelist's answer to one choice step: the index of the button pressed, or no
      press before the timeout. */
  datatype Reply = Pressed(button: nat) | NoPress

  datatype Replies = Replies(first: Reply, second: Reply)

  /** The value behind the pressed button; `None` on a timeout or an unknown button. */
  function WaitForValue(options: seq<Play>, reply: Reply): (r: Option<Play>)
    ensures r.Some? <==> reply.Pressed? && reply.button < |options|
    ensures r.Some? ==> r.value in options && r.value == options[reply.button]
  {
    if reply.Pressed? && reply.button < |options| then Some(options[reply.button]) else None
  }

  datatype Collected = TimedOut | Chose(player: Players.Player)

  /** After the first play: queued, and the special marked used if it was the special. */
  function AfterFirstChoice(p: Players.Player, play1: Play): (q: Players.Player)
    ensures q.chosenPlays == p.chosenPlays + [play1]
    ensures q.specialUsed == (p.specialUsed || IsSpecialPlay(play1))
    ensures q == p.(chosenPlays := q.chosenPlays, specialUsed := q.specialUsed)
  {
    var q := Players.AddQueuedPlay(p, play1);
    if IsSpecialPlay(play1) then q.(specialUsed := true) else q
  }

  /** The options of the first step. */
  function FirstOptions(p: Players.Player): seq<Play>
    requires p.special in SpecialAttackCards
  {
    MakePlaySelection(p, false)
  }

  /** The options of the second step, computed once the first play is queued: its card or
      family is excluded and, if it changes stance, the flipped stance applies. */
  function SecondOptions(p: Players.Player, play1: Play): seq<Play>
    requires p.special in SpecialAttackCards
  {
    MakePlaySelection(AfterFirstChoice(p, play1), PlayChangesStance(play1))
  }

  /** A reply that presses one of the buttons offered. */
  predicate PressesOneOf(reply: Reply, options: seq<Play>)
  {
    reply.Pressed? && reply.button < |options|
  }

  /** One duelist's two choice steps. The second step's options see the first play (its
      card or family is excluded) and, if the first play changes stance, the flipped
      stance. Choosing a special marks it used at once. */
  function CollectMoveChoices(p: Players.Player, replies: Replies): (r: Collected)
    requires p.special in SpecialAttackCards
    ensures replies.first.NoPress? || replies.second.NoPress? ==> r.TimedOut?
    ensures r.Chose? <==>
      && PressesOneOf(replies.first, FirstOptions(p))
      && PressesOneOf(replies.second, SecondOptions(p, FirstOptions(p)[replies.first.button]))
    ensures r.Chose? ==>
      var play1 := FirstOptions(p)[replies.first.button];
      && r.player.chosenPlays == p.chosenPlays + [play1, SecondOptions(p, play1)[replies.second.button]]
    ensures r.Chose? ==>
      && |r.player.chosenPlays| == |p.chosenPlays| + 2
      && r.player.chosenPlays[..|p.chosenPlays|] == p.chosenPlays
      && r.player.specialUsed == (p.specialUsed || IsSpecialPlay(r.player.chosenPlays[|p.chosenPlays|])
                                  || IsSpecialPlay(r.player.chosenPlays[|p.chosenPlays| + 1]))
      && r.player == p.(chosenPlays := r.player.chosenPlays, specialUsed := r.player.specialUsed)
  {
    match WaitForValue(FirstOptions(p), replies.first)
    case None => TimedOut
    case Some(play1) => SecondStep(p, play1, replies.second)
  }

  /** The second choice step, once `play1` has been picked at the first. */
  function SecondStep(p: Players.Player, play1: Play, reply: Reply): (r: Collected)
    requires p.special in SpecialAttackCards
    ensures r.Chose? <==> PressesOneOf(reply, SecondOptions(p, play1))
    ensures r.Chose? ==>
      && r.player.chosenPlays == p.chosenPlays + [play1, SecondOptions(p, play1)[reply.button]]
      && r.player.specialUsed == (p.specialUsed || IsSpecialPlay(play1)
                                  || IsSpecialPlay(SecondOptions(p, play1)[reply.button]))
      && r.player == p.(chosenPlays := r.player.chosenPlays, specialUsed := r.player.specialUsed)
  {
    var q := AfterFirstChoice(p, play1);
    match WaitForValue(SecondOptions(p, play1), reply)
    case None => TimedOut
    case Some(play2) =>
      var q2 := if IsSpecialPlay(play2) then q.(specialUsed := true) else q;
      var done := Players.AddQueuedPlay(q2, play2);
      assert done.chosenPlays == p.chosenPlays + [play1, play2];
      Chose(done)
  }

  /** Each collected play is one of the options offered at its step; the second step's
      options are computed after the first play is queued and the special marked. */
  lemma CollectedFromOptions(p: Players.Player, replies: Replies)
    requires p.special in SpecialAttackCards
    ensures var r := CollectMoveChoices(p, replies);
      r.Chose? ==>
      var play1 := r.player.chosenPlays[|p.chosenPlays|];
      var play2 := r.player.chosenPlays[|p.chosenPlays| + 1];
      && play1 in MakePlaySelection(p, false)
      && play2 in MakePlaySelection(AfterFirstChoice(p, play1), PlayChangesStance(play1))
  {
  }

  /** The two plays a duelist collects at the start of a turn are legal together: the
      second never repeats the first's card or family, neither is locked out, the special
      is played at most once and only while unused, and each attack fits the stance the
      duelist will be in when choosing it. */
  lemma CollectedPlaysAreLegal(p: Players.Player, replies: Replies)
    requires p.special in SpecialAttackCards
    requires p.chosenPlays == [] && LockNotSpecial(p)
    ensures var r := CollectMoveChoices(p, replies);
      r.Chose? ==>
      var play1 := r.player.chosenPlays[0];
      var play2 := r.player.chosenPlays[1];
      && CardOfPlay(play2) != CardOfPlay(play1)
      && Some(CardOfPlay(play1)) != p.locked && Some(CardOfPlay(play2)) != p.locked
      && (IsSpecialPlay(play1) || IsSpecialPlay(play2) ==> !p.specialUsed)
      && !(IsSpecialPlay(play1) && IsSpecialPlay(play2))
      && (play1.Attack? && IsSpecial(play1.card) ==> play1.card == p.special)
      && (play2.Attack? && IsSpecial(play2.card) ==> play2.card == p.special)
      && (play1.Attack? ==> FitsStance(play1.card, p.stance))
      && (play2.Attack? ==> FitsStance(play2.card, EffectiveStance(p, PlayChangesStance(play1))))
  {
    var r := CollectMoveChoices(p, replies);
    if r.Chose? {
      var play1 := r.player.chosenPlays[0];
      var play2 := r.player.chosenPlays[1];
      var q := AfterFirstChoice(p, play1);
      CollectedFromOptions(p, replies);
      SelectionRespectsRestrictions(p, false);
      SelectionRespectsRestrictions(q, PlayChangesStance(play1));
      assert GetCardPlayed(q, true) == Some(CardOfPlay(play1));
      if play1.Attack? { SpecialFlagMatchesTuple(play1.card); }
      if play2.Attack? { SpecialFlagMatchesTuple(play2.card); }
    }
  }
}

=== FILE: turn.dfy ===
/** The turn state machine: collect both duelists' two plays, map timeouts to forfeits,
    resolve the first half, stop if someone died, resolve the second half, stop if
    someone died; and the duel loop that repeats turns. */
module Turn {
  import opened Wrappers
  import opened Cards
  import Players
  import opened Duel
  import Combat
  import opened Selection

  datatype TurnOutcome =
    | Continue(state: GameState)
    | GameOver(state: GameState, winner: Option<Side>, loser: Option<Side>, forfeit: bool)

  // ---------------------------------------------------------------- ending a duel

  /** The future through which `end_game` reports `(winner, loser)`: an asyncio future
      that has no result yet, or holds one. */
  datatype Future = Pending | Resolved(winner: Option<Side>, loser: Option<Side>)

  /** asyncio's `Future.set_result`: stores the result in a pending future; a future that
      already holds a result raises `InvalidStateError`, written here as `None`. */
  function SetResult(f: Future, winner: Option<Side>, loser: Option<Side>): (r: Option<Future>)
    ensures r.Some? <==> f.Pending?
    ensures r.Some? ==> r.value == Resolved(winner, loser)
  {
    if f.Pending? then Some(Resolved(winner, loser)) else None
  }

  /** `end_game` as written: the duel stops being in progress and the result goes into the
      one `winner_future` that every duel shares, so the call raises (`None`) once any
      earlier duel has already set it. */
  function EndGameShared(shared: Future, g: GameState, winner: Option<Side>, loser: Option<Side>, forfeit: bool)
    : (r: Option<(TurnOutcome, Future)>)
    ensures r.Some? <==> shared.Pending?
    ensures r.Some? ==>
      && r.value.1 == Resolved(winner, loser)
      && r.value.0 == GameOver(g.(inProgress := false), winner, loser, forfeit)
  {
    match SetResult(shared, winner, loser)
    case None => None
    case Some(reported) => Some((GameOver(g.(inProgress := false), winner, loser, forfeit), reported))
  }

  /** Two duels end one after the other in the same process: the first reports its
      result, and the second raises, whatever either duel's state and result. */
  lemma SecondDuelToEndRaises(g1: GameState, g2: GameState, winner1: Option<Side>, loser1: Option<Side>,
                              winner2: Option<Side>, loser2: Option<Side>, forfeit1: bool, forfeit2: bool)
    ensures var first := EndGameShared(Pending, g1, winner1, loser1, forfeit1);
      && first.Some?
      && EndGameShared(first.value.1, g2, winner2, loser2, forfeit2).None?
  {
  }

  /** `end_game` with a future of the duel's own, fresh when the duel starts: the duel
      stops being in progress and its outcome carries the result set into that future,
      which never raises. */
  function EndGame(g: GameState, winner: Option<Side>, loser: Option<Side>, forfeit: bool): (r: TurnOutcome)
    ensures r.GameOver? && !r.state.inProgress
    ensures r.state == g.(inProgress := false)
    ensures r.winner == winner && r.loser == loser && r.forfeit == forfeit
  {
    var own := SetResult(Pending, winner, loser);
    GameOver(g.(inProgress := false), own.value.winner, own.value.loser, forfeit)
  }

  /** With a future per duel, any number of duels can end in turn and each one reports its
      own winner and loser. */
  lemma EveryDuelReports(endings: seq<(GameState, Option<Side>, Option<Side>, bool)>)
    ensures forall i :: 0 <= i < |endings| ==>
      var e := endings[i];
      && EndGame(e.0, e.1, e.2, e.3).winner == e.1
      && EndGame(e.0, e.1, e.2, e.3).loser == e.2
  {
  }

  /** The state after the bookkeeping that opens a turn: summary and plays cleared, locks kept. */
  function OpenTurn(g: GameState): GameState
  {
    g.(summary := [], p1 := Players.ClearPlays(g.p1), p2 := Players.ClearPlays(g.p2))
  }

  predicate TimesOut(p: Players.Player, replies: Replies)
    requires p.special in SpecialAttackCards
  {
    CollectMoveChoices(Players.ClearPlays(p), replies).TimedOut?
  }

  /** The state in which the first half is resolved, when both duelists chose. */
  function Chosen(g: GameState, replies1: Replies, replies2: Replies): (c: GameState)
    requires g.p1.special in SpecialAttackCards && g.p2.special in SpecialAttackCards
    requires !TimesOut(g.p1, replies1) && !TimesOut(g.p2, replies2)
    ensures |c.p1.chosenPlays| == 2 && |c.p2.chosenPlays| == 2
    ensures c.p1 == g.p1.(chosenPlays := c.p1.chosenPlays, specialUsed := c.p1.specialUsed)
    ensures c.p2 == g.p2.(chosenPlays := c.p2.chosenPlays, specialUsed := c.p2.specialUsed)
    ensures (g.p1.specialUsed ==> c.p1.specialUsed) && (g.p2.specialUsed ==> c.p2.specialUsed)
    ensures c.inProgress == g.inProgress
  {
    var cleared := OpenTurn(g);
    cleared.(p1 := CollectMoveChoices(cleared.p1, replies1).player,
            p2 := CollectMoveChoices(cleared.p2, replies2).player)
  }

  /** The two half-turns of a turn in which both duelists chose: the second half is
      resolved only if nobody died in the first. */
  function ResolveHalves(c: GameState): (r: TurnOutcome)
    requires |c.p1.chosenPlays| >= 2 && |c.p2.chosenPlays| >= 2
    ensures !r.Continue? ==> !r.forfeit
    ensures var half1 := Combat.ResolvePlays(c, true);
      && (CheckForGameEnd(half1).0.Some? ==> r.GameOver? && r.state == half1.(inProgress := false))
      && (CheckForGameEnd(half1).0.None? ==> r.state.p1.hp <= half1.p1.hp && r.state.p2.hp <= half1.p2.hp)
      && (CheckForGameEnd(half1).0.None? ==>
           r.state == Combat.ResolvePlays(half1, false).(inProgress := r.state.inProgress))
      && (r.GameOver? <==>
           CheckForGameEnd(half1).0.Some? || CheckForGameEnd(Combat.ResolvePlays(half1, false)).0.Some?)
    ensures r.GameOver? ==>
      && r.winner.Some? && r.loser.Some? && r.winner != r.loser
      && (r.loser == Some(P1) <==> Players.IsDead(r.state.p1))
      && (r.loser == Some(P2) ==> Players.IsDead(r.state.p2))
      && !r.state.inProgress
    ensures r.Continue? ==>
      !Players.IsDead(r.state.p1) && !Players.IsDead(r.state.p2) && r.state.inProgress == c.inProgress
  {
    var half1 := Combat.ResolvePlays(c, true);
    var (winner1, loser1) := CheckForGameEnd(half1);
    if winner1.Some? then EndGame(half1, winner1, loser1, false)
    else
      var half2 := Combat.ResolvePlays(half1, false);
      var (winner2, loser2) := CheckForGameEnd(half2);
      if winner2.Some? then EndGame(half2, winner2, loser2, false)
      else Continue(half2)
  }

  /** One turn: a duelist who lets either choice step time out forfeits. */
  function StartTurn(g: GameState, replies1: Replies, replies2: Replies): (r: TurnOutcome)
    requires g.p1.special in SpecialAttackCards && g.p2.special in SpecialAttackCards
    ensures TimesOut(g.p1, replies1) && TimesOut(g.p2, replies2) ==>
      r.GameOver? && r.winner == None && r.loser == None && r.forfeit
    ensures TimesOut(g.p1, replies1) && !TimesOut(g.p2, replies2) ==>
      r.GameOver? && r.winner == Some(P2) && r.loser == Some(P1) && r.forfeit
    ensures !TimesOut(g.p1, replies1) && TimesOut(g.p2, replies2) ==>
      r.GameOver? && r.winner == Some(P1) && r.loser == Some(P2) && r.forfeit
    ensures !TimesOut(g.p1, replies1) && !TimesOut(g.p2, replies2) ==>
      r == ResolveHalves(Chosen(g, replies1, replies2))
    ensures r.GameOver? ==> !r.state.inProgress
    ensures r.GameOver? && r.forfeit ==>
      && r.state.p1.hp == g.p1.hp && r.state.p2.hp == g.p2.hp
      && (g.p1.specialUsed ==> r.state.p1.specialUsed)
      && (g.p2.specialUsed ==> r.state.p2.specialUsed)
  {
    var cleared := OpenTurn(g);
    var c1 := CollectMoveChoices(cleared.p1, replies1);
    var c2 := CollectMoveChoices(cleared.p2, replies2);
    if c1.TimedOut? && c2.TimedOut? then EndGame(cleared, None, None, true)
    else if c1.TimedOut? then EndGame(cleared.(p2 := c2.player), Some(P2), Some(P1), true)
    else if c2.TimedOut? then EndGame(cleared.(p1 := c1.player), Some(P1), Some(P2), true)
    else ResolveHalves(cleared.(p1 := c1.player, p2 := c2.player))
  }

  // ---------------------------------------------------------------- invariants

  /** A lock left by the second half never names a special card. */
  lemma LockAfterNotSpecial(play: Play)
    ensures var lock := Combat.LockAfter(play);
      lock.None? || !(lock.value.AttackOf? && IsSpecial(lock.value.attack))
  {
    if play.Attack? {
      SpecialFlagMatchesTuple(play.card);
    }
  }

  /** The invariant of a running duel minus the in-progress flag, with the plays chosen. */
  predicate ReadyToResolve(c: GameState)
  {
    && Ordered(c)
    && 1 <= c.p1.hp <= 2 && 1 <= c.p2.hp <= 2
    && c.p1.special in SpecialAttackCards && c.p2.special in SpecialAttackCards
    && c.p1.special != c.p2.special
    && LockNotSpecial(c.p1) && LockNotSpecial(c.p2)
    && c.inProgress
    && |c.p1.chosenPlays| >= 2 && |c.p2.chosenPlays| >= 2
  }

  /** Resolving the halves never takes a duelist below zero hit points; a duel that goes
      on is still valid, and a duel that ends has a loser at exactly zero and a winner
      still standing. */
  lemma HalvesKeepDuelValid(c: GameState)
    requires ReadyToResolve(c)
    ensures var r := ResolveHalves(c);
      && 0 <= r.state.p1.hp <= c.p1.hp && 0 <= r.state.p2.hp <= c.p2.hp
      && r.state.p1.specialUsed == c.p1.specialUsed && r.state.p2.specialUsed == c.p2.specialUsed
      && (r.Continue? ==> Valid(r.state))
      && (r.GameOver? ==>
           && (r.loser == Some(P1) ==> r.state.p1.hp == 0 && r.state.p2.hp >= 1)
           && (r.loser == Some(P2) ==> r.state.p2.hp == 0 && r.state.p1.hp >= 1))
  {
    var half1 := Combat.ResolvePlays(c, true);
    Combat.HalfTurnDamage(c, true);
    if CheckForGameEnd(half1).0.None? {
      var half2 := Combat.ResolvePlays(half1, false);
      Combat.HalfTurnDamage(half1, false);
      LockAfterNotSpecial(half1.p1.chosenPlays[1]);
      LockAfterNotSpecial(half1.p2.chosenPlays[1]);
    }
  }

  /** Choosing plays that touches only the plays and the special-used flags leaves a
      valid duel ready to resolve. */
  lemma ReadyAfterChoosing(g: GameState, c: GameState)
    requires Valid(g)
    requires c.p1 == g.p1.(chosenPlays := c.p1.chosenPlays, specialUsed := c.p1.specialUsed)
    requires c.p2 == g.p2.(chosenPlays := c.p2.chosenPlays, specialUsed := c.p2.specialUsed)
    requires |c.p1.chosenPlays| >= 2 && |c.p2.chosenPlays| >= 2
    requires c.inProgress == g.inProgress
    ensures ReadyToResolve(c)
  {
  }

  /** A turn keeps a running duel valid: hit points never rise and never drop below zero,
      a special once used stays used, and a duel won on the board ends with the loser at
      exactly zero and the winner still standing. */
  lemma TurnKeepsDuelValid(g: GameState, replies1: Replies, replies2: Replies)
    requires Valid(g)
    ensures var r := StartTurn(g, replies1, replies2);
      && 0 <= r.state.p1.hp <= g.p1.hp && 0 <= r.state.p2.hp <= g.p2.hp
      && (g.p1.specialUsed ==> r.state.p1.specialUsed)
      && (g.p2.specialUsed ==> r.state.p2.specialUsed)
      && (r.Continue? ==> Valid(r.state))
      && (r.GameOver? && !r.forfeit ==>
           && (r.loser == Some(P1) ==> r.state.p1.hp == 0 && r.state.p2.hp >= 1)
           && (r.loser == Some(P2) ==> r.state.p2.hp == 0 && r.state.p1.hp >= 1))
  {
    if !TimesOut(g.p1, replies1) && !TimesOut(g.p2, replies2) {
      var c := Chosen(g, replies1, replies2);
      ReadyAfterChoosing(g, c);
      HalvesKeepDuelValid(c);
    }
  }

  // ---------------------------------------------------------------- the duel loop

  datatype DuelResult = Ended(outcome: TurnOutcome) | StillRunning(state: GameState)

  /** `run_until_end` over a finite script of both duelists' replies, one pair per turn;
      `StillRunning` when the script runs out before the duel ends. */
  function RunUntilEnd(g: GameState, script: seq<(Replies, Replies)>): (r: DuelResult)
    requires Valid(g)
    ensures r.StillRunning? ==>
      Valid(r.state) && r.state.p1.hp <= g.p1.hp && r.state.p2.hp <= g.p2.hp
    ensures r.Ended? ==>
      && r.outcome.GameOver? && !r.outcome.state.inProgress
      && 0 <= r.outcome.state.p1.hp <= g.p1.hp && 0 <= r.outcome.state.p2.hp <= g.p2.hp
    ensures r.Ended? && !r.outcome.forfeit ==>
      && (r.outcome.loser == Some(P1) ==> r.outcome.state.p1.hp == 0 && r.outcome.state.p2.hp >= 1)
      && (r.outcome.loser == Some(P2) ==> r.outcome.state.p2.hp == 0 && r.outcome.state.p1.hp >= 1)
    ensures |script| == 0 ==> r == StillRunning(g)
    ensures |script| > 0 ==>
      var t := StartTurn(g, script[0].0, script[0].1);
      && (t.GameOver? ==> r == Ended(t))
      && (t.Continue? ==> Valid(t.state) && r == RunUntilEnd(t.state, script[1..]))
    decreases |script|
  {
    if |script| == 0 then StillRunning(g)
    else
      TurnKeepsDuelValid(g, script[0].0, script[0].1);
      match StartTurn(g, script[0].0, script[0].1)
      case Continue(next) => RunUntilEnd(next, script[1..])
      case GameOver(state, winner, loser, forfeit) => Ended(GameOver(state, winner, loser, forfeit))
  }
}


=== FILE: wrappers.dfy ===
/** The optional value the engine uses where Duelbot's Python code has `None`. */
module Wrappers {

  datatype Option<+T> = None | Some(value: T)
}
